=== FILE: README.md ===
# StratGen AI: a verified model of the strategy generator's logic

StratGen AI is a browser app. A user fills in a form (topic, goal, target audience, tone, optional framework). The app asks Google's Gemini service for a content strategy (content pillars, content ideas, distribution channels, KPIs). It shows the result and can save it to, and reload it from, the browser's local storage. Notifications ("toasts") report each outcome.

This project models the sequential logic under the React components as pure Dafny functions over immutable records, and proves what that logic promises:

- `StrategyForm`: the form's validator, field-edit rule and submit gate.
- `Toasts`: the notification list, with append and remove-by-id.
- `App`: the application state machine (load, generate, save, clear, dismiss) over one strategy slot, one storage entry, the loading and saving flags and the toast list.
- `GeminiService`: the strategy prompt and the conversion of the service's answer into a parsed value or one fixed error.
- `Monetization`: the monetization prompt and its failure-to-`null` conversion.
- Support modules:
  - `Text`: JavaScript's `trim`, `join` and `Number.prototype.toString` on non-negative integers.
  - `Js`: JavaScript values, truthiness and object spread.
  - `Schema`: the declared response schema and typed readers for the records of `types.ts`.

The model takes every outside effect as an explicit input:

- the Gemini SDK call is a function from prompt to reply;
- `JSON.parse` is a function from text to an optional value, and `JSON.stringify` a function from value to text;
- `Date.now()` readings are integers, and `toISOString()` is a string;
- the `window.confirm` answer is a boolean;
- whether `localStorage.setItem` and `localStorage.removeItem` return normally is a boolean each.

The strategy slot holds a JavaScript value rather than a typed record. The code stores whatever `JSON.parse` returns, unchecked. `Schema.DecodeStrategy` gives the typed reading, and `App.GenerateDecodes` proves that a well-shaped answer reads back as the expected typed strategy. An answer that also carries an input property such as `topic` replaces the typed form value for it, because the generated content is spread after the form data (`App.AnswerOverridesInput`).

Two behaviours of the code are easy to miss:

- An answer such as `{"unexpected":"shape"}` is not rejected. It is a truthy object, so it becomes the strategy and a success toast is posted (`App.UnexpectedShapeAccepted`).
- Every failure of `generateStrategy` carries one fixed message; the underlying cause is dropped (`GeminiService.GenerateStrategy`, `GeminiService.FailureCauseDiscarded`).

## Model

| member | source | states |
|---|---|---|
| Text.LeadingWhitespace | components/StrategyForm.tsx:72-74 | the count covers only whitespace and stops at the first visible character |
| Text.TrailingWhitespace | components/StrategyForm.tsx:72-74 | everything from the index on is whitespace, and the character before it is visible |
| Text.Trim | services/geminiService.ts:92 | `trim()` is no longer than its input, is empty exactly when the input is all whitespace, and otherwise begins and ends with a visible character |
| Text.TrimEmptyIffBlank | components/StrategyForm.tsx:72-74 | `!s.trim()` holds exactly when every character is whitespace, that is, when no character is visible |
| Text.TrimKeepsMiddle | services/geminiService.ts:92 | `trim()` returns the stretch of the input that begins where the leading whitespace ends, and everything it drops on either side is whitespace |
| Text.TrimIdempotent | services/geminiService.ts:92 | trimming twice is trimming once |
| Text.JoinPlacesElement | StrategyPreview.tsx:9-11 | every element of a `join` appears verbatim at its offset, followed by the separator unless it is the last |
| Text.Join | StrategyPreview.tsx:9-11 | `Array.prototype.join`: the elements with one separator between each pair of neighbours, the empty string for no elements; its content is stated by `Text.JoinLength`, `Text.JoinPlacesElement` and `Text.JoinKeepsOrder` |
| Text.JoinLength | StrategyPreview.tsx:9-11 | a join is as long as its elements plus one separator between each pair of neighbours |
| Text.OffsetsIncrease | StrategyPreview.tsx:9-11 | with a non-empty separator, later elements start strictly after earlier ones end |
| Text.JoinKeepsOrder | StrategyPreview.tsx:9-11 | elements i < k of a join both appear, in that order |
| Text.JoinSurrounds | services/geminiService.ts:71-80 | an inner line of a newline-joined template stands between two newlines |
| Text.NatToDecimal | App.tsx:40 | `Date.now().toString()` is a non-empty string of decimal digits with no leading zero |
| Text.DecimalRoundTrip | App.tsx:40 | reading the decimal text back gives the number |
| Text.DecimalInjective | App.tsx:40 | different clock readings give different id strings |
| Js.Spread | App.tsx:37-42 | `{...v}` copies an object's own entries; an array's or string's elements under their index keys; nothing from null, booleans or numbers |
| Js.IndexMap | App.tsx:39 | an array spread has exactly the keys "0" to "n-1", each holding its element |
| Js.Truthy | App.tsx:36 | JavaScript truthiness, as `if (generatedContent)` and `if (!strategy)` (App.tsx line 58) test it: `null`, `false`, `0` and `""` are falsy, every array and object is truthy |
| Schema.DecodeAll | types.ts:23-28 | a list reads back exactly when every element does, element by element in order |
| Schema.DecodeEncodeAll | types.ts:23-28 | encoding a list and reading it back returns it, given the per-element round trip |
| Schema.DecodeKeyPillar | services/geminiService.ts:17-24 | a pillar object reads back exactly when it has string `pillar` and `description` |
| Schema.EncodeKeyPillar | types.ts:8-11 | an encoded pillar reads back as itself |
| Schema.DecodeContentIdea | services/geminiService.ts:29-36 | an idea object reads back exactly when it has string `title`, `format` and `description` |
| Schema.EncodeContentIdea | types.ts:2-6 | an encoded idea reads back as itself |
| Schema.DecodeChannel | services/geminiService.ts:42-48 | a channel object reads back exactly when it has string `channel` and `strategy` |
| Schema.EncodeChannel | types.ts:13-16 | an encoded channel reads back as itself |
| Schema.DecodeKpi | services/geminiService.ts:54-60 | a KPI object reads back exactly when it has string `metric` and `goal` |
| Schema.EncodeKpi | types.ts:18-21 | an encoded KPI reads back as itself |
| Schema.DecodeGenerated | services/geminiService.ts:11-65 | an answer reads as a generated strategy exactly when it conforms to the declared schema: all four arrays present, every item with its required string fields |
| Schema.ConformsToStrategySchema | services/geminiService.ts:11-65 | the declared response schema: an object with the four required arrays, each item an object with its required string properties, extra properties allowed |
| Schema.ConformsByField | services/geminiService.ts:11-65 | an object conforms to the declared schema exactly when each of the four arrays is present with its required item fields |
| Schema.GeneratedFieldsConform | services/geminiService.ts:11-65 | the four arrays of any generated strategy, as an object, conform to the declared schema |
| Schema.DecodeGeneratedFields | types.ts:23-28 | an object holding a generated strategy's four arrays reads back as that strategy, in order |
| Schema.DecodeMonetizationIdea | types.ts:38-42 | an idea object reads back exactly when it has string `contentIdeaTitle`, `method` and `description` |
| Schema.EncodeMonetizationIdea | types.ts:38-42 | an encoded monetization idea reads back as itself |
| Schema.DecodeOutreachTemplate | types.ts:44-48 | a template reads back when `platform` and `body` are strings and `subject` is absent or a string |
| Schema.EncodeOutreachTemplate | types.ts:44-48 | an encoded template, with or without a subject, reads back as itself |
| Schema.DecodeMonetizationPlan | types.ts:50-53 | a plan reads back exactly when both of its arrays do |
| Schema.EncodeMonetizationPlan | types.ts:50-53 | an encoded plan reads back as itself |
| Schema.InputKeysDistinct | types.ts:30-36 | no input property is a generated array, `id`, `createdAt` or `monetizationPlan` |
| Schema.GeneratedKeysDistinct | types.ts:23-28 | the generated properties are not `id`, `createdAt` or `monetizationPlan` |
| Schema.GeneratedKeysNotInput | types.ts:56-60 | the generated properties and the input properties are disjoint |
| Schema.InputFields | types.ts:30-36 | the form data as an object has exactly the five input properties |
| Schema.DecodeInput | types.ts:30-36 | the input reads back exactly when all five input properties are strings |
| Schema.DecodePlanField | types.ts:59 | a missing or `null` plan reads as no plan; any other value reads exactly when it is a well-formed plan, as that plan |
| Schema.DecodeStrategy | types.ts:56-60 | a value that reads as a strategy conforms to the schema and carries string `id`, `createdAt` and the five input strings |
| Schema.ObjectInput | App.tsx:37-42 | the built object's input properties are the form data whenever the content does not override them |
| Schema.ObjectGenerated | App.tsx:37-42 | the built object's generated arrays read back as the content's |
| Schema.ObjectMeta | App.tsx:40-41 | the built object has the given `id` and `createdAt` and no plan |
| Schema.StrategyObject | App.tsx:37-42 | the object literal `{...formData, ...generatedContent, id, createdAt}`: later entries override earlier ones; what it holds is stated by `Schema.ObjectInput`, `Schema.ObjectGenerated` and `Schema.ObjectMeta` |
| Schema.DecodeConformingObject | App.tsx:37-42 | the object built from form data, any content that conforms to the declared schema and names no input property, `id`, `createdAt` or plan, an id and a timestamp reads as the form data verbatim, the content's arrays, that id and timestamp, with no plan |
| Schema.DecodeStrategyObject | App.tsx:37-42 | the object built from form data, the generated arrays, an id and a timestamp reads as exactly that strategy, with no plan |
| Toasts.Add | context/ToastContext.tsx:16-19 | one toast with the given id, message and type is appended; the earlier toasts keep their values and order; the length grows by one |
| Toasts.Remove | context/ToastContext.tsx:21-23 | no toast with the id is left and the list does not grow |
| Toasts.RemoveKeepsOthers | context/ToastContext.tsx:22 | every toast with another id stays, as many times as it was there |
| Toasts.RemoveAppend | context/ToastContext.tsx:22 | filtering distributes over concatenation, so the survivors keep their relative order |
| Toasts.RemoveSingle | context/ToastContext.tsx:22 | a single toast is dropped exactly when it carries the id |
| Toasts.RemoveAbsent | context/ToastContext.tsx:22 | removing an id that no toast carries leaves the list unchanged |
| Toasts.RemoveIdempotent | context/ToastContext.tsx:22 | removing twice is removing once |
| Toasts.RemoveJustAdded | context/ToastContext.tsx:16-22 | removing the id of a just-added toast undoes the add and also drops earlier toasts with the same id |
| Toasts.RemoveOtherKeepsAdded | context/ToastContext.tsx:16-22 | removing another id commutes with the add |
| Toasts.SameMillisecondCollision | context/ToastContext.tsx:17 | two toasts added in the same millisecond share an id, and one remove drops both |
| StrategyForm.Put | components/StrategyForm.tsx:60 | the edited field takes the new value and the other fields keep theirs |
| StrategyForm.Flag | components/StrategyForm.tsx:72-74 | a field's message is added exactly when it is blank, and other entries are untouched |
| StrategyForm.Validate | components/StrategyForm.tsx:70-77 | the fresh error map flags topic, goal and audience exactly when blank, never tone or framework, each with its own message |
| StrategyForm.IsValid | components/StrategyForm.tsx:76 | `validate()` returns true exactly when the error map it builds has no keys; characterised by `StrategyForm.ValidIffNoneBlank` |
| StrategyForm.ValidateFlagsTrimmedEmpty | components/StrategyForm.tsx:72-74 | a required field is flagged exactly when `trim()` empties it |
| StrategyForm.ValidIffNoneBlank | components/StrategyForm.tsx:72-76 | the form is valid iff none of topic, goal and audience is blank |
| StrategyForm.ValidImpliesNoneBlank | components/StrategyForm.tsx:72-76 | a valid form has no blank required field |
| StrategyForm.NoneBlankImpliesValid | components/StrategyForm.tsx:72-76 | a form with no blank required field is valid |
| StrategyForm.FilledFieldNotFlagged | components/StrategyForm.tsx:72-74 | a non-blank field gets no error |
| StrategyForm.OptionalFieldNotFlagged | components/StrategyForm.tsx:72-74 | tone and framework never get an error |
| StrategyForm.BlankFieldFlagged | components/StrategyForm.tsx:72-74 | a blank required field gets an error |
| StrategyForm.BlankFieldInvalid | components/StrategyForm.tsx:72-76 | one blank required field makes the form invalid |
| StrategyForm.ValidIffVisibleCharacters | components/StrategyForm.tsx:72-76 | the form is valid iff topic, goal and audience each contain a non-whitespace character |
| StrategyForm.HandleChange | components/StrategyForm.tsx:58-68 | the edited field takes the value; its error is deleted when it was shown; the other fields and errors are unchanged |
| StrategyForm.ChangeClearsError | components/StrategyForm.tsx:58-68 | on a well-formed form, an edit always clears that field's error and keeps the form well formed |
| StrategyForm.HandleSubmit | components/StrategyForm.tsx:79-86 | the errors become the validator's; a valid form is handed on verbatim and posts nothing; an invalid one posts exactly one error toast and is not handed on |
| StrategyForm.SubmitReplacesErrors | components/StrategyForm.tsx:70-77 | the old error map has no effect on a submit: it is replaced, not merged |
| StrategyForm.InitialForm | components/StrategyForm.tsx:52-54 | the initial form has empty topic, goal, audience and framework and tone `Professional`, and submitting it flags all three required fields |
| StrategyForm.Initial | components/StrategyForm.tsx:52-55 | the form's first state: empty topic, goal, audience and framework, tone `Professional`, no errors; its consequences are stated by `StrategyForm.InitialForm` |
| GeminiService.FrameworkText | services/geminiService.ts:77 | the framework line shows the framework when non-empty and `Not specified` when empty |
| GeminiService.StrategyPromptLines | services/geminiService.ts:71-80 | the prompt template split at its newlines, with the form fields and the framework fallback substituted |
| GeminiService.StrategyPrompt | services/geminiService.ts:71-80 | the prompt `generateStrategy` sends: the template lines joined by newlines; its content is stated by `GeminiService.StrategyPromptShowsFields` |
| GeminiService.PromptLine | services/geminiService.ts:71-80 | each labelled line of the prompt stands between two newlines |
| GeminiService.StrategyPromptShowsFields | services/geminiService.ts:71-80 | the prompt holds topic, goal, audience and tone verbatim, and the framework text, each on its own labelled line, in that order |
| GeminiService.EmptyFrameworkLooksUnspecified | services/geminiService.ts:77 | an empty framework and the literal framework `Not specified` give the same prompt |
| GeminiService.GenerateStrategy | services/geminiService.ts:68-99 | an answer that parses after trimming is returned as parsed, with no shape check; every failure carries the one fixed message |
| GeminiService.FailureCauseDiscarded | services/geminiService.ts:95-97 | failures with different causes give the same error |
| GeminiService.NullAnswerReturned | services/geminiService.ts:93 | an answer that parses to `null` is returned as `null`, which is falsy |
| Monetization.PillarNames | StrategyPreview.tsx:9 | the pillar names, one per pillar, in strategy order |
| Monetization.IdeaLine | StrategyPreview.tsx:11 | one content idea rendered as `- title (format)`; stated in place by `Monetization.IdeasInStrategyOrder` |
| Monetization.IdeaLines | StrategyPreview.tsx:11 | one `- title (format)` line per idea, in strategy order |
| Monetization.PlanPromptLines | StrategyPreview.tsx:2-16 | the plan prompt template split at its newlines, with the strategy's fields, pillar names and idea lines substituted |
| Monetization.PlanPrompt | StrategyPreview.tsx:2-16 | the prompt `generateMonetizationPlan` sends: the template lines joined by newlines; its content is stated by `Monetization.PlanPromptShowsFields` and the order lemmas |
| Monetization.PlanPromptLine | StrategyPreview.tsx:2-16 | each labelled line of the prompt stands between two newlines |
| Monetization.PlanPromptLineText | StrategyPreview.tsx:2-16 | each labelled line's text sits in the prompt at its offset |
| Monetization.PlanPromptShowsFields | StrategyPreview.tsx:6-8 | the prompt holds topic, goal and audience verbatim, each on its own labelled line, in that order |
| Monetization.PillarsInStrategyOrder | StrategyPreview.tsx:9 | any two pillar names appear in the prompt in strategy order |
| Monetization.IdeasInStrategyOrder | StrategyPreview.tsx:11 | any two ideas appear in the prompt as `- title (format)`, in strategy order |
| Monetization.GenerateMonetizationPlan | StrategyPreview.tsx:17-36 | a failed call or an unparsable answer gives `null`; otherwise the parsed value is returned unchanged |
| Monetization.AnyPlanAccepted | StrategyPreview.tsx:28 | any plan the service sends is returned, including ideas that name no content idea of the strategy |
| App.Initial | App.tsx:13-16 | the state on mount: no strategy, both flags down, no toasts, over whatever the store holds |
| App.MountLoad | App.tsx:19-30 | from the initial state the mount effect posts at most one toast, none exactly when nothing is stored, and sets a strategy only to what a stored entry parses to |
| App.Load | App.tsx:19-30 | a non-empty stored entry that parses becomes the strategy with one info toast; one that does not parse posts one error toast and sets nothing; no entry or an empty entry changes nothing; storage is only read |
| App.StartGenerate | App.tsx:33 | the loading flag goes up and nothing else changes |
| App.BuildStrategy | App.tsx:37-42 | the new strategy has the input properties, the content's properties and `id`/`createdAt`, later sources overriding earlier ones |
| App.FinishGenerate | App.tsx:35-54 | a truthy result replaces the strategy with one success toast; a falsy result or a thrown error keeps it and posts one error toast; the loading flag comes down in every case |
| App.Generate | App.tsx:32-55 | a generation posts exactly one toast, leaves storage and the saving flag alone, and ends with the loading flag down |
| App.GenerateServiceFailure | App.tsx:48-51 | a failed service call posts `Generation failed: ` followed by the service's fixed message, and the strategy stays |
| App.GenerateReplacesWholesale | App.tsx:37-43 | the new strategy does not depend on the previous one, so a previous plan is dropped |
| App.GenerateDecodes | App.tsx:35-44 | any answer that conforms to the declared schema and names no input property, `id`, `createdAt` or plan yields a strategy that reads as the form data verbatim, the answer's arrays, the id and the timestamp, with no plan, and posts one success toast |
| App.FinishDecodes | App.tsx:36-44 | settling with such a conforming answer sets a strategy that reads as the form data, the answer's arrays, the id and the timestamp, with one success toast |
| App.GenerateDecodesEncoded | App.tsx:35-44 | an answer that is exactly the encoded arrays of a generated strategy `g` reads back with `g` itself |
| App.AnswerOverridesInput | App.tsx:37-39 | an answer that carries an input property (say `topic`) overrides the form data for that property, because the content is spread after it |
| App.FinishUnexpectedShape | App.tsx:36-44 | settling with `{"unexpected":"shape"}` sets a truthy strategy with one success toast that does not read as a strategy |
| App.UnexpectedShapeBuildsNoPillars | App.tsx:37-42 | the object built from `{"unexpected":"shape"}` has no `keyPillars` |
| App.NoPillarsNoStrategy | types.ts:56-60 | an object without `keyPillars` does not read as a strategy |
| App.UnexpectedShapeAccepted | App.tsx:36-44 | an answer without the generated arrays still becomes the strategy with a success toast, though it does not read as a strategy |
| App.Save | App.tsx:57-75 | with no strategy, one warning and nothing else; otherwise the one entry is overwritten, other entries kept, with one success toast, or, when the write fails, storage stays, the saving flag is down and one error toast is posted; the strategy is never touched |
| App.SaveThenLoad | App.tsx:21-23 | load after a successful save restores the saved strategy, given a serialiser that round-trips |
| App.Clear | App.tsx:77-83 | declined changes nothing; confirmed empties the slot, removes the one entry, keeps the other entries and posts one info toast; when the removal throws, the slot is emptied, the entry stays and no toast is posted |
| App.ClearTwice | App.tsx:77-83 | clearing twice leaves the same strategy and storage as clearing once |
| App.ClearThenLoad | App.tsx:19-30 | after a confirmed clear, the load effect changes nothing |
| App.FailedClearReloads | App.tsx:77-83 | a clear whose removal throws empties the slot, but the entry stays, so the next mount loads the strategy back with the info toast |
| App.Dismiss | context/ToastContext.tsx:21-23 | closing a toast drops every toast with its id and leaves the rest of the state alone |
| App.Submit | components/StrategyForm.tsx:79-86 | a submit keeps the form data; an invalid form keeps the strategy and posts one error toast |
| App.SubmitKeepsInputVerbatim | components/StrategyForm.tsx:82 | the strategy generated from a valid form, with any conforming answer that names no input property, holds the form data exactly as typed, whitespace included |

## Left out

- Rendering, JSX, styling and the presentational components are not modelled; neither are the card, input and select helpers or the button enable flags in components/StrategyPreview.tsx.
- The toast component's timers (4500, 5000 and 500 ms) are not modelled: they depend on React effect scheduling.
- The `setTimeout` that resets `isSaving` 1500 ms after a successful save (App.tsx:66-69) is not modelled: it is timer-driven. `App.Save` leaves the flag up.
- The Gemini SDK, the network, the model name and the module-load `API_KEY` check (services/geminiService.ts:5-9, 83-90) are foreign code. The call is an input: a reply carrying text, or a failure with a cause.
- `response.text` being undefined is not modelled. Such a reply would throw inside the `try` and become the same fixed error.
- `JSON.parse`, `JSON.stringify`, `localStorage`, `Date.now()`, `toISOString()` and `window.confirm` are host calls, passed in as inputs. The save-then-load round trip is assumed of the serialiser, not proved.
- `localStorage.getItem` throwing is not modelled; only the parse can fail on load.
- The `console.error` calls (App.tsx:27, 49 and 71, services/geminiService.ts:96, StrategyPreview.tsx:30 and 34) are not modelled: logging changes no state.
- A `removeItem` that throws in `handleClear` leaves the handler as an uncaught exception; `App.Clear` models the state it leaves behind, not the error's report.
- async/await scheduling is not modelled: only one request is in flight.
- The declared `monetizationPlanSchema` is not part of this model because its definition is not among the sources. Plans are read against the shape in types.ts.
- Monetization.GenerateMonetizationPlan takes a typed strategy. A strategy missing its arrays would throw while the prompt is built, outside the `try` (StrategyPreview.tsx:9-11); that case is not modelled.
- The mount effect re-running when `addToast` changes identity is not modelled. `App.Load` is one run.
- Text.IsWhitespace is the set of characters that ECMAScript's `trim` removes: the WhiteSpace and LineTerminator code points. Strings are sequences of code points, not UTF-16 units, so string spread is per character.
- Numbers are reals; no floating-point rounding is modelled.
- Toast ids are unbounded integers and clock readings are naturals; no 53-bit limit is modelled.
- The `isLoading` flag disabling the submit button is UI and is not modelled as a guard on `App.Generate`.

=== FILE: app.dfy ===
/** The application: one in-memory strategy slot, one storage entry under
    a fixed key, the loading and saving flags and the toast list, with the
    load, generate, save, clear and dismiss transitions. Storage, the clock,
    `JSON.parse`, `JSON.stringify`, `window.confirm` and the service are
    inputs. */
module App {
  import opened Wrappers
  import opened Text
  import opened Types
  import opened Js
  import Toasts
  import Schema
  import GeminiService
  import StrategyForm

  const StorageKey := "stratgen_ai_strategy"

  const LoadedMessage := "Loaded saved strategy from your last session."
  const LoadFailedMessage := "Could not load saved strategy."
  const GeneratedMessage := "Strategy generated successfully!"
  const EmptyResultMessage := "AI failed to generate a strategy. Please try again."
  const GenerationFailedPrefix := "Generation failed: "
  const NothingToSaveMessage := "No strategy to save."
  const SavedMessage := "Strategy saved successfully!"
  const SaveFailedMessage := "Failed to save strategy. Storage might be full."
  const ClearedMessage := "Strategy has been cleared."

  /** The application state. `strategy` holds whatever was last set, as a
      JavaScript value: `null` when there is none, but a loaded or
      generated value is never shape-checked. `storage` is the browser's
      key-value store. */
  datatype State = State(
    strategy: Value,
    storage: map<string, string>,
    isLoading: bool,
    isSaving: bool,
    toasts: seq<Toast>)

  /** The state on mount, over whatever the store holds. */
  function Initial(storage: map<string, string>): State {
    State(Null, storage, false, false, [])
  }

  /** `after` is `before` with one toast of `kind` carrying `message`
      appended. */
  predicate Posted(before: seq<Toast>, after: seq<Toast>, kind: ToastType, message: string) {
    Toasts.PostedOne(before, after, kind) && after[|before|].message == message
  }

  /** All but the toasts, the strategy and the storage entry are as before. */
  predicate SameFlags(a: State, b: State) {
    a.isLoading == b.isLoading && a.isSaving == b.isSaving
  }

  /** The storage entry is not set, or is the empty string. */
  predicate NothingStored(storage: map<string, string>) {
    StorageKey !in storage || storage[StorageKey] == ""
  }

  // ---- load ---------------------------------------------------------------

  /** The mount effect: a stored non-empty entry that parses becomes the
      strategy, whatever it parses to, with an info toast; one that does
      not parse posts an error toast and sets nothing; no entry, or an
      empty one, changes nothing. Storage is only read. */
  function Load(st: State, parse: string -> Option<Value>, now: int): (r: State)
    ensures r.storage == st.storage && SameFlags(r, st)
    ensures NothingStored(st.storage) ==> r == st
    ensures !NothingStored(st.storage) && parse(st.storage[StorageKey]).Some? ==>
      r.strategy == parse(st.storage[StorageKey]).value && Posted(st.toasts, r.toasts, Info, LoadedMessage)
    ensures !NothingStored(st.storage) && parse(st.storage[StorageKey]).None? ==>
      r.strategy == st.strategy && Posted(st.toasts, r.toasts, Error, LoadFailedMessage)
  {
    if NothingStored(st.storage) then st
    else match parse(st.storage[StorageKey])
      case Some(v) => st.(strategy := v, toasts := Toasts.Add(st.toasts, now, LoadedMessage, Info))
      case None => st.(toasts := Toasts.Add(st.toasts, now, LoadFailedMessage, Error))
  }

  /** The first render: the app starts with no strategy, both flags down
      and no toasts, and the mount effect then posts at most one toast,
      none exactly when nothing is stored. A strategy is set only from a
      stored entry that parses, and then is what it parses to. */
  lemma MountLoad(storage: map<string, string>, parse: string -> Option<Value>, now: int)
    ensures var r := Load(Initial(storage), parse, now);
      && r.storage == storage && !r.isLoading && !r.isSaving
      && |r.toasts| <= 1
      && (r.toasts == [] <==> NothingStored(storage))
      && (r.strategy != Null ==> !NothingStored(storage) && parse(storage[StorageKey]) == Some(r.strategy))
  {
  }

  // ---- generate -----------------------------------------------------------

  /** `handleGenerate` up to the service call: the loading flag goes up. */
  function StartGenerate(st: State): (r: State)
    ensures r.isLoading
    ensures r.strategy == st.strategy && r.storage == st.storage && r.isSaving == st.isSaving
    ensures r.toasts == st.toasts
  {
    st.(isLoading := true)
  }

  /** The strategy `handleGenerate` builds from a truthy result: the form
      data, then the result's own properties, then `id` (the clock reading
      as decimal text) and `createdAt`. */
  function BuildStrategy(d: StrategyInput, content: Value, idTime: nat, createdAt: string): (v: Value)
    ensures v.Obj? && Truthy(v)
    ensures "id" in v.fields && v.fields["id"] == Str(NatToDecimal(idTime))
    ensures "createdAt" in v.fields && v.fields["createdAt"] == Str(createdAt)
    ensures forall k :: k in v.fields <==>
      k in Schema.InputKeys || k in Spread(content) || k == "id" || k == "createdAt"
    ensures forall k :: k in Spread(content) && k != "id" && k != "createdAt" ==>
      v.fields[k] == Spread(content)[k]
    ensures forall k :: k in Schema.InputKeys && k !in Spread(content) ==>
      v.fields[k] == Schema.InputFields(d)[k]
  {
    Schema.StrategyObject(d, Spread(content), NatToDecimal(idTime), createdAt)
  }

  /** `handleGenerate` after the service returns `outcome`: a truthy value
      replaces the strategy with a success toast; a falsy one, or a thrown
      error, keeps the strategy and posts one error toast (the error's
      message after a fixed prefix). The loading flag comes down whatever
      happened; storage is untouched. */
  function FinishGenerate(st: State, d: StrategyInput, outcome: Result<Value, string>,
                          idTime: nat, createdAt: string, now: int): (r: State)
    ensures !r.isLoading && r.isSaving == st.isSaving && r.storage == st.storage
    ensures outcome.Ok? && Truthy(outcome.value) ==>
      r.strategy == BuildStrategy(d, outcome.value, idTime, createdAt)
      && Posted(st.toasts, r.toasts, Success, GeneratedMessage)
    ensures outcome.Ok? && !Truthy(outcome.value) ==>
      r.strategy == st.strategy && Posted(st.toasts, r.toasts, Error, EmptyResultMessage)
    ensures outcome.Err? ==>
      r.strategy == st.strategy && Posted(st.toasts, r.toasts, Error, GenerationFailedPrefix + outcome.error)
  {
    var done := st.(isLoading := false);
    match outcome
    case Ok(v) =>
      if Truthy(v) then
        done.(strategy := BuildStrategy(d, v, idTime, createdAt),
              toasts := Toasts.Add(st.toasts, now, GeneratedMessage, Success))
      else done.(toasts := Toasts.Add(st.toasts, now, EmptyResultMessage, Error))
    case Err(message) =>
      done.(toasts := Toasts.Add(st.toasts, now, GenerationFailedPrefix + message, Error))
  }

  /** `handleGenerate(formData)` as one step: raise the flag, call the
      service, settle. */
  function Generate(st: State, d: StrategyInput, ai: string -> GeminiService.Reply,
                    parse: string -> Option<Value>, idTime: nat, createdAt: string, now: int): (r: State)
    ensures !r.isLoading && r.isSaving == st.isSaving && r.storage == st.storage
    ensures |r.toasts| == |st.toasts| + 1 && r.toasts[..|st.toasts|] == st.toasts
  {
    FinishGenerate(StartGenerate(st), d, GeminiService.GenerateStrategy(d, ai, parse), idTime, createdAt, now)
  }

  /** A failing service call surfaces as one error toast quoting the
      service's fixed message, and the strategy stays. */
  lemma GenerateServiceFailure(st: State, d: StrategyInput, ai: string -> GeminiService.Reply,
                               parse: string -> Option<Value>, idTime: nat, createdAt: string, now: int)
    requires ai(GeminiService.StrategyPrompt(d)).Failed?
    ensures var r := Generate(st, d, ai, parse, idTime, createdAt, now);
      r.strategy == st.strategy
      && Posted(st.toasts, r.toasts, Error, GenerationFailedPrefix + GeminiService.FailureMessage)
  {
  }

  /** A successful generation replaces the strategy wholesale: the result
      does not depend on the strategy held before, so a previous plan is
      gone unless the new content itself carries one. */
  lemma GenerateReplacesWholesale(st1: State, st2: State, d: StrategyInput, content: Value,
                                  idTime: nat, createdAt: string, now1: int, now2: int)
    requires Truthy(content)
    ensures FinishGenerate(st1, d, Ok(content), idTime, createdAt, now1).strategy
         == FinishGenerate(st2, d, Ok(content), idTime, createdAt, now2).strategy
    ensures "monetizationPlan" !in Spread(content) ==>
      "monetizationPlan" !in FinishGenerate(st1, d, Ok(content), idTime, createdAt, now1).strategy.fields
  {
    var m := FinishGenerate(st1, d, Ok(content), idTime, createdAt, now1).strategy.fields;
    if "monetizationPlan" !in Spread(content) {
      forall k | k in Schema.InputKeys ensures k != "monetizationPlan" {
        Schema.InputKeysDistinct(k);
      }
    }
  }

  /** End to end: when the service answers with an object that conforms
      to the declared schema and names no input property, `id`,
      `createdAt` or plan, the new strategy reads back as the typed
      strategy made of the form data verbatim, the arrays of the answer,
      the id and the timestamp, with no plan. */
  lemma GenerateDecodes(st: State, d: StrategyInput, ai: string -> GeminiService.Reply,
                        parse: string -> Option<Value>, m: map<string, Value>,
                        idTime: nat, createdAt: string, now: int)
    requires ai(GeminiService.StrategyPrompt(d)).Answered?
    requires parse(Trim(ai(GeminiService.StrategyPrompt(d)).text)) == Some(Obj(m))
    requires Schema.ConformsToStrategySchema(Obj(m))
    requires Schema.InputKeys !! m.Keys && "id" !in m && "createdAt" !in m && "monetizationPlan" !in m
    ensures Schema.DecodeGenerated(Obj(m)).Some?
    ensures var r := Generate(st, d, ai, parse, idTime, createdAt, now);
      && Schema.DecodeStrategy(r.strategy)
         == Some(Strategy(d, Schema.DecodeGenerated(Obj(m)).value, NatToDecimal(idTime), createdAt, None))
      && Posted(st.toasts, r.toasts, Success, GeneratedMessage)
  {
    FinishDecodes(StartGenerate(st), d, m, idTime, createdAt, now);
  }

  /** The settling step of `GenerateDecodes`. */
  lemma FinishDecodes(st: State, d: StrategyInput, m: map<string, Value>, idTime: nat, createdAt: string, now: int)
    requires Schema.ConformsToStrategySchema(Obj(m))
    requires Schema.InputKeys !! m.Keys && "id" !in m && "createdAt" !in m && "monetizationPlan" !in m
    ensures Schema.DecodeGenerated(Obj(m)).Some?
    ensures var r := FinishGenerate(st, d, Ok(Obj(m)), idTime, createdAt, now);
      && Schema.DecodeStrategy(r.strategy)
         == Some(Strategy(d, Schema.DecodeGenerated(Obj(m)).value, NatToDecimal(idTime), createdAt, None))
      && Posted(st.toasts, r.toasts, Success, GeneratedMessage)
  {
    var content := Obj(m);
    var v := Schema.StrategyObject(d, m, NatToDecimal(idTime), createdAt);
    assert Spread(content) == m;
    assert BuildStrategy(d, content, idTime, createdAt) == v;
    Schema.DecodeConformingObject(d, m, NatToDecimal(idTime), createdAt);
  }

  /** The canonical case: an answer that is exactly the encoded arrays of
      `g` reads back with `g` itself. */
  lemma GenerateDecodesEncoded(st: State, d: StrategyInput, ai: string -> GeminiService.Reply,
                               parse: string -> Option<Value>, g: GeneratedStrategy,
                               idTime: nat, createdAt: string, now: int)
    requires ai(GeminiService.StrategyPrompt(d)).Answered?
    requires parse(Trim(ai(GeminiService.StrategyPrompt(d)).text)) == Some(Obj(Schema.GeneratedFields(g)))
    ensures var r := Generate(st, d, ai, parse, idTime, createdAt, now);
      && Schema.DecodeStrategy(r.strategy) == Some(Strategy(d, g, NatToDecimal(idTime), createdAt, None))
      && Posted(st.toasts, r.toasts, Success, GeneratedMessage)
  {
    var m := Schema.GeneratedFields(g);
    Schema.GeneratedFieldsConform(g);
    Schema.GeneratedKeysNotInput(g);
    assert "id" !in m && "createdAt" !in m && "monetizationPlan" !in m;
    Schema.DecodeGeneratedFields(g, m);
    GenerateDecodes(st, d, ai, parse, m, idTime, createdAt, now);
  }

  /** An answer that carries an input property overrides the form data:
      the content is spread after the form data. */
  lemma AnswerOverridesInput(d: StrategyInput, m: map<string, Value>, k: string,
                             idTime: nat, createdAt: string)
    requires k in Schema.InputKeys && k in m
    ensures BuildStrategy(d, Obj(m), idTime, createdAt).fields[k] == m[k]
  {
    Schema.InputKeysDistinct(k);
  }

  /** End to end: an answer such as `{"unexpected": "shape"}` is not
      rejected. It is a truthy object, so it becomes the strategy and a
      success toast is posted, though it does not read as a strategy. */
  lemma UnexpectedShapeAccepted(st: State, d: StrategyInput, ai: string -> GeminiService.Reply,
                                parse: string -> Option<Value>, idTime: nat, createdAt: string, now: int)
    requires ai(GeminiService.StrategyPrompt(d)).Answered?
    requires parse(Trim(ai(GeminiService.StrategyPrompt(d)).text)) == Some(Obj(map["unexpected" := Str("shape")]))
    ensures var r := Generate(st, d, ai, parse, idTime, createdAt, now);
      && Truthy(r.strategy)
      && Posted(st.toasts, r.toasts, Success, GeneratedMessage)
      && Schema.DecodeStrategy(r.strategy) == None
  {
    FinishUnexpectedShape(StartGenerate(st), d, idTime, createdAt, now);
  }

  /** The settling step of `UnexpectedShapeAccepted`. */
  lemma FinishUnexpectedShape(st: State, d: StrategyInput, idTime: nat, createdAt: string, now: int)
    ensures var r := FinishGenerate(st, d, Ok(Obj(map["unexpected" := Str("shape")])), idTime, createdAt, now);
      && Truthy(r.strategy)
      && Posted(st.toasts, r.toasts, Success, GeneratedMessage)
      && Schema.DecodeStrategy(r.strategy) == None
  {
    var v := BuildStrategy(d, Obj(map["unexpected" := Str("shape")]), idTime, createdAt);
    UnexpectedShapeBuildsNoPillars(d, idTime, createdAt);
    NoPillarsNoStrategy(v);
  }

  /** The object built from `{"unexpected": "shape"}` has no `keyPillars`. */
  lemma UnexpectedShapeBuildsNoPillars(d: StrategyInput, idTime: nat, createdAt: string)
    ensures "keyPillars" !in BuildStrategy(d, Obj(map["unexpected" := Str("shape")]), idTime, createdAt).fields
  {
    var content := Obj(map["unexpected" := Str("shape")]);
    assert "keyPillars" !in Spread(content) by {
      assert Spread(content) == map["unexpected" := Str("shape")];
    }
    assert "keyPillars" !in Schema.InputKeys;
  }

  /** An object without `keyPillars` does not read as a strategy. */
  lemma NoPillarsNoStrategy(v: Value)
    requires v.Obj? && "keyPillars" !in v.fields
    ensures Schema.DecodeStrategy(v) == None
  {
    assert "keyPillars" in Schema.StrategySchema;
  }

  // ---- save ---------------------------------------------------------------

  /** `handleSave` with a serialiser and the outcome of the write: with no
      strategy, a warning and nothing else; otherwise the flag goes up and
      the one entry is overwritten with a success toast, or, when the write
      fails, storage stays, the flag comes down and an error toast is
      posted. The strategy itself is never touched. */
  function Save(st: State, stringify: Value -> string, writeOk: bool, now: int): (r: State)
    ensures r.strategy == st.strategy && r.isLoading == st.isLoading
    ensures !Truthy(st.strategy) ==>
      r.storage == st.storage && r.isSaving == st.isSaving
      && Posted(st.toasts, r.toasts, Warning, NothingToSaveMessage)
    ensures Truthy(st.strategy) && writeOk ==>
      && StorageKey in r.storage && r.storage[StorageKey] == stringify(st.strategy)
      && (forall k :: k != StorageKey ==> (k in r.storage <==> k in st.storage))
      && (forall k :: k != StorageKey && k in r.storage ==> r.storage[k] == st.storage[k])
      && r.isSaving
      && Posted(st.toasts, r.toasts, Success, SavedMessage)
    ensures Truthy(st.strategy) && !writeOk ==>
      r.storage == st.storage && !r.isSaving && Posted(st.toasts, r.toasts, Error, SaveFailedMessage)
  {
    if !Truthy(st.strategy) then st.(toasts := Toasts.Add(st.toasts, now, NothingToSaveMessage, Warning))
    else if writeOk then
      st.(storage := st.storage[StorageKey := stringify(st.strategy)], isSaving := true,
          toasts := Toasts.Add(st.toasts, now, SavedMessage, Success))
    else st.(isSaving := false, toasts := Toasts.Add(st.toasts, now, SaveFailedMessage, Error))
  }

  /** Save then load restores the same strategy, given a serialiser whose
      output parses back to its input and is never empty (as
      `JSON.stringify` of a truthy value is not). */
  lemma SaveThenLoad(st: State, stringify: Value -> string, parse: string -> Option<Value>, now1: int, now2: int)
    requires Truthy(st.strategy)
    requires stringify(st.strategy) != "" && parse(stringify(st.strategy)) == Some(st.strategy)
    ensures var saved := Save(st, stringify, true, now1);
      && Load(saved, parse, now2).strategy == st.strategy
      && Posted(saved.toasts, Load(saved, parse, now2).toasts, Info, LoadedMessage)
  {
  }

  // ---- clear --------------------------------------------------------------

  /** `handleClear` with the answer to the confirmation and whether
      `removeItem` returns normally: declined changes nothing; confirmed
      empties the slot, removes the one entry and posts an info toast. A
      removal that throws happens after the slot was emptied and before
      the toast: the entry stays and no toast is posted. */
  function Clear(st: State, confirmed: bool, removeOk: bool, now: int): (r: State)
    ensures !confirmed ==> r == st
    ensures confirmed && !removeOk ==>
      r.strategy == Null && r.storage == st.storage && SameFlags(r, st) && r.toasts == st.toasts
    ensures confirmed && removeOk ==>
      && r.strategy == Null
      && StorageKey !in r.storage
      && (forall k :: k != StorageKey ==> (k in r.storage <==> k in st.storage))
      && (forall k :: k != StorageKey && k in r.storage ==> r.storage[k] == st.storage[k])
      && SameFlags(r, st)
      && Posted(st.toasts, r.toasts, Info, ClearedMessage)
  {
    if !confirmed then st
    else if !removeOk then st.(strategy := Null)
    else
      st.(strategy := Null, storage := st.storage - {StorageKey},
          toasts := Toasts.Add(st.toasts, now, ClearedMessage, Info))
  }

  /** Clearing twice leaves the same strategy and storage as clearing
      once. */
  lemma ClearTwice(st: State, now1: int, now2: int)
    ensures Clear(Clear(st, true, true, now1), true, true, now2).strategy == Clear(st, true, true, now1).strategy
    ensures Clear(Clear(st, true, true, now1), true, true, now2).storage == Clear(st, true, true, now1).storage
  {
  }

  /** After a confirmed clear there is nothing to load. */
  lemma ClearThenLoad(st: State, parse: string -> Option<Value>, now1: int, now2: int)
    ensures Load(Clear(st, true, true, now1), parse, now2) == Clear(st, true, true, now1)
  {
  }

  /** A clear whose removal throws empties the slot only for this session:
      the entry is still stored, so the next mount brings the strategy
      back. */
  lemma FailedClearReloads(st: State, parse: string -> Option<Value>, now1: int, now2: int)
    requires !NothingStored(st.storage) && parse(st.storage[StorageKey]).Some?
    ensures Clear(st, true, false, now1).strategy == Null
    ensures var r := Load(Initial(Clear(st, true, false, now1).storage), parse, now2);
      r.strategy == parse(st.storage[StorageKey]).value && Posted([], r.toasts, Info, LoadedMessage)
  {
  }

  // ---- toasts -------------------------------------------------------------

  /** A toast's close: every toast with that id goes. */
  function Dismiss(st: State, id: int): (r: State)
    ensures r.strategy == st.strategy && r.storage == st.storage && SameFlags(r, st)
    ensures forall i :: 0 <= i < |r.toasts| ==> r.toasts[i].id != id
  {
    st.(toasts := Toasts.Remove(st.toasts, id))
  }

  // ---- the form and the app together --------------------------------------

  /** A submit of the form followed, when the form hands data on, by the
      generation it triggers. The form and the app share the toast list. */
  function Submit(form: StrategyForm.Form, st: State, now: int, ai: string -> GeminiService.Reply,
                  parse: string -> Option<Value>, idTime: nat, createdAt: string, later: int)
    : (r: (StrategyForm.Form, State))
    ensures r.0.data == form.data
    ensures !StrategyForm.IsValid(form.data) ==>
      r.1.strategy == st.strategy && Toasts.PostedOne(st.toasts, r.1.toasts, Error)
  {
    var s := StrategyForm.HandleSubmit(form, st.toasts, now);
    match s.generate
    case None => (s.form, st.(toasts := s.toasts))
    case Some(d) => (s.form, Generate(st, d, ai, parse, idTime, createdAt, later))
  }

  /** A valid form whose generation succeeds, with an answer that conforms
      to the declared schema and names no input property, `id`,
      `createdAt` or plan, yields a strategy made of the form data exactly
      as typed, surrounding whitespace included. */
  lemma SubmitKeepsInputVerbatim(form: StrategyForm.Form, st: State, now: int,
                                 ai: string -> GeminiService.Reply, parse: string -> Option<Value>,
                                 m: map<string, Value>, idTime: nat, createdAt: string, later: int)
    requires StrategyForm.IsValid(form.data)
    requires ai(GeminiService.StrategyPrompt(form.data)).Answered?
    requires parse(Trim(ai(GeminiService.StrategyPrompt(form.data)).text)) == Some(Obj(m))
    requires Schema.ConformsToStrategySchema(Obj(m))
    requires Schema.InputKeys !! m.Keys && "id" !in m && "createdAt" !in m && "monetizationPlan" !in m
    ensures var r := Submit(form, st, now, ai, parse, idTime, createdAt, later);
      && Schema.DecodeStrategy(r.1.strategy).Some?
      && Schema.DecodeStrategy(r.1.strategy).value.input == form.data
  {
    GenerateDecodes(st, form.data, ai, parse, m, idTime, createdAt, later);
  }
}

=== FILE: form.dfy ===
/** The strategy form: its field state, the per-field error map, the
    validator, the field-edit rule and the submit gate. */
module StrategyForm {
  import opened Wrappers
  import opened Text
  import opened Types
  import Toasts

  /** The form's input ids. */
  datatype Field = Topic | Goal | Audience | Tone | Framework

  /** The fields that must not be blank. */
  predicate IsRequired(f: Field) {
    f.Topic? || f.Goal? || f.Audience?
  }

  const IncompleteMessage := "Please fill in all required fields."

  /** The tones the select offers. */
  const Tones: seq<string> := ["Professional", "Casual", "Informative", "Persuasive", "Witty"]

  function Get(d: StrategyInput, f: Field): string {
    match f
    case Topic => d.topic
    case Goal => d.goal
    case Audience => d.audience
    case Tone => d.tone
    case Framework => d.framework
  }

  /** `{...prev, [id]: value}`: field `f` takes `value`, the others keep
      theirs. */
  function Put(d: StrategyInput, f: Field, value: string): (r: StrategyInput)
    ensures Get(r, f) == value
    ensures forall g :: g != f ==> Get(r, g) == Get(d, g)
  {
    match f
    case Topic => d.(topic := value)
    case Goal => d.(goal := value)
    case Audience => d.(audience := value)
    case Tone => d.(tone := value)
    case Framework => d.(framework := value)
  }

  /** The inline message shown under a blank required field. */
  function RequiredMessage(f: Field): string {
    match f
    case Topic => "Topic is required"
    case Goal => "Goal is required"
    case Audience => "Target Audience is required"
    case _ => ""
  }

  /** The form's state: the field values and the per-field errors. */
  datatype Form = Form(data: StrategyInput, errors: map<Field, string>)

  /** The form as first rendered. */
  function Initial(): Form {
    Form(StrategyInput("", "", "", "Professional", ""), map[])
  }

  /** The errors shown are exactly required-field messages. */
  predicate WellFormed(form: Form) {
    forall f :: f in form.errors ==> IsRequired(f) && form.errors[f] == RequiredMessage(f)
  }

  /** Adds the message for `f` when `blank` holds. */
  function Flag(errs: map<Field, string>, f: Field, blank: bool): (r: map<Field, string>)
    ensures f in r <==> f in errs || blank
    ensures forall g :: g != f ==> (g in r <==> g in errs) && (g in r ==> r[g] == errs[g])
    ensures blank ==> r[f] == RequiredMessage(f)
    ensures !blank && f in errs ==> r[f] == errs[f]
  {
    if blank then errs[f := RequiredMessage(f)] else errs
  }

  /** `validate`'s fresh error map: one entry for each required field that
      is blank after trimming, carrying that field's message; tone and
      framework never get one. */
  function Validate(d: StrategyInput): (errs: map<Field, string>)
    ensures Topic in errs <==> IsBlank(d.topic)
    ensures Goal in errs <==> IsBlank(d.goal)
    ensures Audience in errs <==> IsBlank(d.audience)
    ensures Tone !in errs && Framework !in errs
    ensures forall f :: f in errs ==> errs[f] == RequiredMessage(f)
  {
    Flag(Flag(Flag(map[], Topic, IsBlank(d.topic)), Goal, IsBlank(d.goal)), Audience, IsBlank(d.audience))
  }

  /** The validator flags exactly the required fields that `trim()` empties. */
  lemma ValidateFlagsTrimmedEmpty(d: StrategyInput)
    ensures Topic in Validate(d) <==> Trim(d.topic) == ""
    ensures Goal in Validate(d) <==> Trim(d.goal) == ""
    ensures Audience in Validate(d) <==> Trim(d.audience) == ""
  {
    TrimEmptyIffBlank(d.topic);
    TrimEmptyIffBlank(d.goal);
    TrimEmptyIffBlank(d.audience);
  }

  /** `validate()`'s verdict: the fresh error map has no keys. */
  predicate IsValid(d: StrategyInput) {
    Validate(d).Keys == {}
  }

  /** The form is valid iff none of topic, goal and audience is blank. */
  lemma ValidIffNoneBlank(d: StrategyInput)
    ensures IsValid(d) <==> !IsBlank(d.topic) && !IsBlank(d.goal) && !IsBlank(d.audience)
  {
    ValidImpliesNoneBlank(d);
    NoneBlankImpliesValid(d);
  }

  lemma ValidImpliesNoneBlank(d: StrategyInput)
    ensures IsValid(d) ==> !IsBlank(d.topic) && !IsBlank(d.goal) && !IsBlank(d.audience)
  {
    if IsBlank(d.topic) { BlankFieldInvalid(d, Topic); }
    if IsBlank(d.goal) { BlankFieldInvalid(d, Goal); }
    if IsBlank(d.audience) { BlankFieldInvalid(d, Audience); }
  }

  lemma NoneBlankImpliesValid(d: StrategyInput)
    ensures !IsBlank(d.topic) && !IsBlank(d.goal) && !IsBlank(d.audience) ==> IsValid(d)
  {
    if !IsBlank(d.topic) && !IsBlank(d.goal) && !IsBlank(d.audience) {
      forall f ensures f !in Validate(d) {
        match f
        case Topic => FilledFieldNotFlagged(d, Topic);
        case Goal => FilledFieldNotFlagged(d, Goal);
        case Audience => FilledFieldNotFlagged(d, Audience);
        case Tone => OptionalFieldNotFlagged(d, Tone);
        case Framework => OptionalFieldNotFlagged(d, Framework);
      }
    }
  }

  lemma FilledFieldNotFlagged(d: StrategyInput, f: Field)
    requires !IsBlank(Get(d, f))
    ensures f !in Validate(d)
  {
  }

  lemma OptionalFieldNotFlagged(d: StrategyInput, f: Field)
    requires f == Tone || f == Framework
    ensures f !in Validate(d)
  {
  }

  lemma BlankFieldFlagged(d: StrategyInput, f: Field)
    requires IsRequired(f) && IsBlank(Get(d, f))
    ensures f in Validate(d)
  {
  }

  lemma BlankFieldInvalid(d: StrategyInput, f: Field)
    requires IsRequired(f) && IsBlank(Get(d, f))
    ensures !IsValid(d)
  {
    assert f in Validate(d);
  }

  /** The form is valid iff topic, goal and audience each hold a character
      that is not whitespace. */
  lemma ValidIffVisibleCharacters(d: StrategyInput)
    ensures IsValid(d) <==>
      && (exists k :: 0 <= k < |d.topic| && !IsWhitespace(d.topic[k]))
      && (exists k :: 0 <= k < |d.goal| && !IsWhitespace(d.goal[k]))
      && (exists k :: 0 <= k < |d.audience| && !IsWhitespace(d.audience[k]))
  {
    ValidIffNoneBlank(d);
    TrimEmptyIffBlank(d.topic);
    TrimEmptyIffBlank(d.goal);
    TrimEmptyIffBlank(d.audience);
  }

  /** `handleChange` on field `f`: the field takes the new value, and the
      field's error is deleted when it is shown; nothing else changes. */
  function HandleChange(form: Form, f: Field, value: string): (r: Form)
    ensures Get(r.data, f) == value
    ensures forall g :: g != f ==> Get(r.data, g) == Get(form.data, g)
    ensures forall g :: g != f ==> (g in r.errors <==> g in form.errors)
    ensures forall g :: g != f && g in r.errors ==> r.errors[g] == form.errors[g]
    ensures f in form.errors && form.errors[f] != "" ==> f !in r.errors
    ensures !(f in form.errors && form.errors[f] != "") ==> r.errors == form.errors
  {
    var errors := if f in form.errors && form.errors[f] != "" then form.errors - {f} else form.errors;
    Form(Put(form.data, f, value), errors)
  }

  /** What a submit does: the form state afterwards, the toast list
      afterwards, and the form data handed to `onGenerate`, if any. */
  datatype Submitted = Submitted(form: Form, toasts: seq<Toast>, generate: Option<StrategyInput>)

  /** `handleSubmit` at clock reading `now`: the error map is replaced by
      the validator's; a valid form is handed on verbatim and posts nothing,
      an invalid one posts exactly one error toast and is not handed on. */
  function HandleSubmit(form: Form, toasts: seq<Toast>, now: int): (r: Submitted)
    ensures r.form.data == form.data
    ensures r.form.errors == Validate(form.data)
    ensures r.generate.Some? <==> IsValid(form.data)
    ensures r.generate.Some? ==> r.generate.value == form.data && r.toasts == toasts
    ensures r.generate.None? ==>
      Toasts.PostedOne(toasts, r.toasts, Error) && r.toasts[|toasts|].message == IncompleteMessage
  {
    var errors := Validate(form.data);
    var checked := Form(form.data, errors);
    if errors.Keys == {} then Submitted(checked, toasts, Some(form.data))
    else Submitted(checked, Toasts.Add(toasts, now, IncompleteMessage, Error), None)
  }

  /** The initial form is well formed, offers the first tone, and is
      rejected on submit with every required field flagged. */
  lemma InitialForm(toasts: seq<Toast>, now: int)
    ensures WellFormed(Initial())
    ensures Initial().data.tone == Tones[0]
    ensures forall f :: f != Tone ==> Get(Initial().data, f) == ""
    ensures HandleSubmit(Initial(), toasts, now).generate.None?
    ensures var errors := HandleSubmit(Initial(), toasts, now).form.errors;
      Topic in errors && Goal in errors && Audience in errors
  {
    var d := Initial().data;
    assert IsBlank(d.topic) && IsBlank(d.goal) && IsBlank(d.audience);
    BlankFieldFlagged(d, Topic);
    BlankFieldFlagged(d, Goal);
    BlankFieldFlagged(d, Audience);
    BlankFieldInvalid(d, Topic);
  }

  /** On a well-formed form, editing a field always clears its error, and
      the form stays well formed. */
  lemma ChangeClearsError(form: Form, f: Field, value: string)
    requires WellFormed(form)
    ensures f !in HandleChange(form, f, value).errors
    ensures WellFormed(HandleChange(form, f, value))
  {
  }

  /** Submitting discards the previous errors: two forms with the same data
      end up with the same state whatever errors they showed. */
  lemma SubmitReplacesErrors(d: StrategyInput, e1: map<Field, string>, e2: map<Field, string>,
                             toasts: seq<Toast>, now: int)
    ensures HandleSubmit(Form(d, e1), toasts, now) == HandleSubmit(Form(d, e2), toasts, now)
    ensures WellFormed(HandleSubmit(Form(d, e1), toasts, now).form)
  {
  }
}

=== FILE: gemini.dfy ===
/** The strategy service: the prompt built from the form data, and the
    conversion of the model's answer into a parsed value or one fixed
    error. The SDK call and `JSON.parse` are oracles passed in. */
module GeminiService {
  import opened Wrappers
  import opened Text
  import opened Types
  import opened Js

  /** What one `generateContent` call yields: the response text, or a
      failure of the transport, the service or the key, with its cause. */
  datatype Reply = Answered(text: string) | Failed(cause: string)

  /** The one message every failure of `generateStrategy` carries. */
  const FailureMessage := "Failed to generate content from AI. Please check your API key and network connection."

  /** `framework || 'Not specified'`: the empty string is the only falsy
      string. */
  function FrameworkText(framework: string): (r: string)
    ensures r != ""
    ensures framework != "" ==> r == framework
    ensures framework == "" ==> r == "Not specified"
  {
    if framework == "" then "Not specified" else framework
  }

  /** The lines of the prompt template, split at its newlines. The template
      opens with a newline and closes with a four-space line. */
  function StrategyPromptLines(d: StrategyInput): seq<string> {
    [ "",
      Intro,
      "    Topic: " + d.topic,
      "    Primary Goal: " + d.goal,
      "    Target Audience: " + d.audience,
      "    Desired Tone: " + d.tone,
      "    Optional Framework: " + FrameworkText(d.framework),
      "",
      Closing,
      "    " ]
  }

  /** The template's fixed opening and closing instructions. */
  const Intro: string := "    You are an expert content strategist. Create a comprehensive content strategy based on the following details."
  const Closing: string := "    Provide a detailed strategy including key content pillars, a list of specific content ideas with formats, recommended distribution channels, and key performance indicators (KPIs) to track success. Return the output in JSON format."

  /** The prompt `generateStrategy` sends. */
  function StrategyPrompt(d: StrategyInput): string {
    Join(StrategyPromptLines(d), "\n")
  }

  /** Line `i` of the prompt stands whole between two newlines. */
  lemma PromptLine(d: StrategyInput, i: nat)
    requires 2 <= i <= 6
    ensures Offset(StrategyPromptLines(d), "\n", i) >= 1
    ensures Occurs(StrategyPrompt(d), "\n" + StrategyPromptLines(d)[i] + "\n",
                   Offset(StrategyPromptLines(d), "\n", i) - 1)
  {
    JoinSurrounds(StrategyPromptLines(d), "\n", i);
  }

  /** The prompt shows topic, goal, audience and tone verbatim, and the
      framework or `Not specified`, each on its own labelled line, in that
      order. */
  lemma {:induction false} StrategyPromptShowsFields(d: StrategyInput)
    ensures exists t: int, g: int, a: int, n: int, f: int ::
      && t < g < a < n < f
      && Occurs(StrategyPrompt(d), "\n" + ("    Topic: " + d.topic) + "\n", t)
      && Occurs(StrategyPrompt(d), "\n" + ("    Primary Goal: " + d.goal) + "\n", g)
      && Occurs(StrategyPrompt(d), "\n" + ("    Target Audience: " + d.audience) + "\n", a)
      && Occurs(StrategyPrompt(d), "\n" + ("    Desired Tone: " + d.tone) + "\n", n)
      && Occurs(StrategyPrompt(d), "\n" + ("    Optional Framework: " + FrameworkText(d.framework)) + "\n", f)
  {
    var xs := StrategyPromptLines(d);
    PromptLine(d, 2);
    PromptLine(d, 3);
    PromptLine(d, 4);
    PromptLine(d, 5);
    PromptLine(d, 6);
    OffsetsIncrease(xs, "\n", 2, 3);
    OffsetsIncrease(xs, "\n", 3, 4);
    OffsetsIncrease(xs, "\n", 4, 5);
    OffsetsIncrease(xs, "\n", 5, 6);
    var t := Offset(xs, "\n", 2) - 1;
    var g := Offset(xs, "\n", 3) - 1;
    var a := Offset(xs, "\n", 4) - 1;
    var n := Offset(xs, "\n", 5) - 1;
    var f := Offset(xs, "\n", 6) - 1;
    assert t < g < a < n < f;
  }

  /** An empty framework and the literal framework `Not specified` produce
      the same prompt: the service cannot tell them apart. */
  lemma EmptyFrameworkLooksUnspecified(d: StrategyInput)
    ensures StrategyPrompt(d.(framework := "")) == StrategyPrompt(d.(framework := "Not specified"))
  {
  }

  /** `generateStrategy(input)`: the prompt goes to the service; an answer
      is trimmed and parsed, and whatever it parses to (`null` included) is
      returned with no check against the declared schema; a failed call
      and a failed parse both become the one fixed error, the cause
      dropped. */
  function GenerateStrategy(d: StrategyInput, ai: string -> Reply, parse: string -> Option<Value>)
    : (r: Result<Value, string>)
    ensures r.Err? ==> r.error == FailureMessage
    ensures r.Ok? <==> ai(StrategyPrompt(d)).Answered? && parse(Trim(ai(StrategyPrompt(d)).text)).Some?
    ensures r.Ok? ==> r.value == parse(Trim(ai(StrategyPrompt(d)).text)).value
  {
    match ai(StrategyPrompt(d))
    case Failed(_) => Err(FailureMessage)
    case Answered(text) =>
      match parse(Trim(text))
      case None => Err(FailureMessage)
      case Some(v) => Ok(v)
  }

  /** Two failing calls give the same outcome whatever their causes. */
  lemma FailureCauseDiscarded(d: StrategyInput, ai1: string -> Reply, ai2: string -> Reply,
                              parse: string -> Option<Value>)
    requires ai1(StrategyPrompt(d)).Failed? && ai2(StrategyPrompt(d)).Failed?
    ensures GenerateStrategy(d, ai1, parse) == GenerateStrategy(d, ai2, parse) == Err(FailureMessage)
  {
  }

  /** An answer that parses to JSON `null` comes back as `null`, which the
      caller reads as "no strategy". */
  lemma NullAnswerReturned(d: StrategyInput, ai: string -> Reply, parse: string -> Option<Value>)
    requires ai(StrategyPrompt(d)).Answered?
    requires parse(Trim(ai(StrategyPrompt(d)).text)) == Some(Null)
    ensures GenerateStrategy(d, ai, parse) == Ok(Null)
    ensures !Truthy(GenerateStrategy(d, ai, parse).value)
  {
  }
}

=== FILE: js.dfy ===
/** The JavaScript values the application moves around untyped: whatever
    `JSON.parse` returns, and the plain objects built from them with object
    spread. */
module Js {
  import Text

  /** A JSON value. Numbers are exact reals (floating-point rounding is not
      modelled); an object is its own enumerable properties. */
  datatype Value =
    | Null
    | Bool(b: bool)
    | Num(n: real)
    | Str(s: string)
    | Arr(items: seq<Value>)
    | Obj(fields: map<string, Value>)

  /** JavaScript truthiness, as tested by `if (v)` and `!v`: `null`, `false`,
      `0` and `""` are falsy; every array and object is truthy. */
  predicate Truthy(v: Value) {
    match v
    case Null => false
    case Bool(b) => b
    case Num(n) => n != 0.0
    case Str(s) => s != ""
    case Arr(_) => true
    case Obj(_) => true
  }

  /** The keys of an array-like of length `n`: `"0"` to the decimal text of
      `n - 1`. */
  function IndexKeys(n: nat): set<string> {
    set i | 0 <= i < n :: Text.NatToDecimal(i)
  }

  /** The properties `{...xs}` copies from an array-like: key `"i"` (the
      decimal text of the index) holds element `i`. */
  function IndexMap(xs: seq<Value>): (m: map<string, Value>)
    ensures m.Keys == IndexKeys(|xs|)
    ensures forall i :: 0 <= i < |xs| ==> m[Text.NatToDecimal(i)] == xs[i]
  {
    if xs == [] then map[]
    else
      var n := |xs| - 1;
      Text.DecimalInjective();
      var m := IndexMap(xs[..n]);
      assert IndexKeys(|xs|) == IndexKeys(n) + {Text.NatToDecimal(n)};
      m[Text.NatToDecimal(n) := xs[n]]
  }

  /** The one-character strings of `s`, as indexing a string yields them. */
  function Chars(s: string): (r: seq<Value>)
    ensures |r| == |s|
    ensures forall i :: 0 <= i < |s| ==> r[i] == Str([s[i]])
  {
    seq(|s|, i requires 0 <= i < |s| => Str([s[i]]))
  }

  /** The properties that `{...v}` copies into an object literal: an
      object's own entries; an array's or a string's elements under their
      index keys; nothing from `null`, a boolean or a number. */
  function Spread(v: Value): (m: map<string, Value>)
    ensures v.Obj? ==> m == v.fields
    ensures v.Null? || v.Bool? || v.Num? ==> m == map[]
    ensures v.Arr? ==> m.Keys == IndexKeys(|v.items|)
    ensures v.Arr? ==> forall i :: 0 <= i < |v.items| ==> m[Text.NatToDecimal(i)] == v.items[i]
    ensures v.Str? ==> m.Keys == IndexKeys(|v.s|)
    ensures v.Str? ==> forall i :: 0 <= i < |v.s| ==> m[Text.NatToDecimal(i)] == Str([v.s[i]])
  {
    match v
    case Obj(fields) => fields
    case Arr(items) => IndexMap(items)
    case Str(s) => IndexMap(Chars(s))
    case _ => map[]
  }
}

=== FILE: monetization.dfy ===
/** The monetization planner: the prompt built from a strategy, and the
    conversion of the model's answer, where every failure becomes `null`.
    The SDK call and `JSON.parse` are oracles passed in. */
module Monetization {
  import opened Wrappers
  import opened Text
  import opened Types
  import opened Js
  import GeminiService
  import Schema

  /** `keyPillars.map(p => p.pillar)`. */
  function PillarNames(ps: seq<KeyPillar>): (r: seq<string>)
    ensures |r| == |ps|
    ensures forall i :: 0 <= i < |ps| ==> r[i] == ps[i].pillar
  {
    seq(|ps|, i requires 0 <= i < |ps| => ps[i].pillar)
  }

  /** One content idea as the prompt lists it. */
  function IdeaLine(c: ContentIdea): string {
    "- " + c.title + " (" + c.format + ")"
  }

  /** `contentIdeas.map(idea => ...)`. */
  function IdeaLines(cs: seq<ContentIdea>): (r: seq<string>)
    ensures |r| == |cs|
    ensures forall i :: 0 <= i < |cs| ==> r[i] == IdeaLine(cs[i])
  {
    seq(|cs|, i requires 0 <= i < |cs| => IdeaLine(cs[i]))
  }

  /** The template's fixed lines. */
  const Persona: string := "    You are a growth marketing expert specializing in content monetization."
  const Request: string := "    Based on the following content strategy, create a detailed monetization and outreach plan."
  const StrategyHeading: string := "    **Content Strategy to Analyze:**"
  const IdeasHeading: string := "    - **Content Ideas:**"
  const TaskHeading: string := "    **Your Task:**"
  const IdeasTask: string := "    1. Suggest 3-4 specific, actionable monetization ideas. Each idea must be directly tied to one of the content ideas listed above."
  const OutreachTask: string := "    2. Provide 2-3 distinct outreach templates (e.g., for email, LinkedIn) to contact potential sponsors, affiliate partners, or collaborators. The templates should be professional, persuasive, and ready to use with minor edits."
  const FormatTask: string := "    Return the output in JSON format."

  /** The separators of the two lists. */
  const PillarSeparator := ", "
  const IdeaSeparator := "\n "

  /** The template split at its own newlines; the idea list, one piece
      here, carries newlines of its own. */
  function PlanPromptLines(s: Strategy): seq<string> {
    [ "",
      Persona,
      Request,
      StrategyHeading,
      "    - **Topic:** " + s.input.topic,
      "    - **Goal:** " + s.input.goal,
      "    - **Target Audience:** " + s.input.audience,
      "    - **Key Content Pillars:** " + Join(PillarNames(s.generated.keyPillars), PillarSeparator),
      IdeasHeading,
      Join(IdeaLines(s.generated.contentIdeas), IdeaSeparator),
      TaskHeading,
      IdeasTask,
      OutreachTask,
      FormatTask,
      "  " ]
  }

  /** The prompt `generateMonetizationPlan` sends. */
  function PlanPrompt(s: Strategy): string {
    Join(PlanPromptLines(s), "\n")
  }

  lemma PlanPromptLine(s: Strategy, i: nat)
    requires 4 <= i <= 9
    ensures Offset(PlanPromptLines(s), "\n", i) >= 1
    ensures Occurs(PlanPrompt(s), "\n" + PlanPromptLines(s)[i] + "\n",
                   Offset(PlanPromptLines(s), "\n", i) - 1)
  {
    JoinSurrounds(PlanPromptLines(s), "\n", i);
  }

  /** The prompt shows topic, goal and audience verbatim, each on its own
      labelled line, in that order. */
  lemma {:induction false} PlanPromptShowsFields(s: Strategy)
    ensures exists t: int, g: int, a: int ::
      && t < g < a
      && Occurs(PlanPrompt(s), "\n" + ("    - **Topic:** " + s.input.topic) + "\n", t)
      && Occurs(PlanPrompt(s), "\n" + ("    - **Goal:** " + s.input.goal) + "\n", g)
      && Occurs(PlanPrompt(s), "\n" + ("    - **Target Audience:** " + s.input.audience) + "\n", a)
  {
    var xs := PlanPromptLines(s);
    PlanPromptLine(s, 4);
    PlanPromptLine(s, 5);
    PlanPromptLine(s, 6);
    OffsetsIncrease(xs, "\n", 4, 5);
    OffsetsIncrease(xs, "\n", 5, 6);
    var t := Offset(xs, "\n", 4) - 1;
    var g := Offset(xs, "\n", 5) - 1;
    var a := Offset(xs, "\n", 6) - 1;
    assert t < g < a;
  }

  /** Where the text of prompt line `i` begins. */
  lemma PlanPromptLineText(s: Strategy, i: nat)
    requires 4 <= i <= 9
    ensures Occurs(PlanPrompt(s), PlanPromptLines(s)[i], Offset(PlanPromptLines(s), "\n", i))
  {
    JoinPlacesElement(PlanPromptLines(s), "\n", i);
  }

  /** The pillar names appear in the prompt in strategy order: pillar `i`
      ends before pillar `k` begins. */
  lemma {:induction false} PillarsInStrategyOrder(s: Strategy, i: nat, k: nat)
    requires i < k < |s.generated.keyPillars|
    ensures exists a: int, b: int ::
      && a + |s.generated.keyPillars[i].pillar| < b
      && Occurs(PlanPrompt(s), s.generated.keyPillars[i].pillar, a)
      && Occurs(PlanPrompt(s), s.generated.keyPillars[k].pillar, b)
  {
    var names := PillarNames(s.generated.keyPillars);
    var heading := "    - **Key Content Pillars:** ";
    var line := PlanPromptLines(s)[7];
    var start := Offset(PlanPromptLines(s), "\n", 7);
    PlanPromptLineText(s, 7);
    var list := Join(names, PillarSeparator);
    assert line == heading + list;
    assert Occurs(line, list, |heading|);
    JoinKeepsOrder(names, PillarSeparator, i, k);
    OccursWithin(PlanPrompt(s), line, start, list, |heading|);
    OccursWithin(PlanPrompt(s), list, start + |heading|, names[i], Offset(names, PillarSeparator, i));
    OccursWithin(PlanPrompt(s), list, start + |heading|, names[k], Offset(names, PillarSeparator, k));
    var a := start + |heading| + Offset(names, PillarSeparator, i);
    var b := start + |heading| + Offset(names, PillarSeparator, k);
    assert a + |names[i]| < b;
  }

  /** Each content idea appears in the prompt as `- title (format)`, in
      strategy order: idea `i` ends before idea `k` begins. */
  lemma {:induction false} IdeasInStrategyOrder(s: Strategy, i: nat, k: nat)
    requires i < k < |s.generated.contentIdeas|
    ensures exists a: int, b: int ::
      && a + |IdeaLine(s.generated.contentIdeas[i])| < b
      && Occurs(PlanPrompt(s), "- " + s.generated.contentIdeas[i].title + " (" + s.generated.contentIdeas[i].format + ")", a)
      && Occurs(PlanPrompt(s), "- " + s.generated.contentIdeas[k].title + " (" + s.generated.contentIdeas[k].format + ")", b)
  {
    var lines := IdeaLines(s.generated.contentIdeas);
    var start := Offset(PlanPromptLines(s), "\n", 9);
    PlanPromptLineText(s, 9);
    var list := Join(lines, IdeaSeparator);
    JoinKeepsOrder(lines, IdeaSeparator, i, k);
    OccursWithin(PlanPrompt(s), list, start, lines[i], Offset(lines, IdeaSeparator, i));
    OccursWithin(PlanPrompt(s), list, start, lines[k], Offset(lines, IdeaSeparator, k));
    var a := start + Offset(lines, IdeaSeparator, i);
    var b := start + Offset(lines, IdeaSeparator, k);
    assert a + |lines[i]| < b;
  }

  /** `generateMonetizationPlan(strategy)`: a failed call and an answer that
      does not parse both give `null`; otherwise the parsed value comes
      back unchanged, whatever its shape. */
  function GenerateMonetizationPlan(s: Strategy, ai: string -> GeminiService.Reply,
                                    parse: string -> Option<Value>): (r: Value)
    ensures ai(PlanPrompt(s)).Failed? ==> r == Null
    ensures ai(PlanPrompt(s)).Answered? && parse(Trim(ai(PlanPrompt(s)).text)).None? ==> r == Null
    ensures ai(PlanPrompt(s)).Answered? && parse(Trim(ai(PlanPrompt(s)).text)).Some? ==>
      r == parse(Trim(ai(PlanPrompt(s)).text)).value
  {
    match ai(PlanPrompt(s))
    case Failed(_) => Null
    case Answered(text) =>
      match parse(Trim(text))
      case None => Null
      case Some(v) => v
  }

  /** Any plan the service sends reads back unchanged, including one whose
      ideas name titles the strategy does not have: nothing ties a
      `contentIdeaTitle` to the strategy's ideas. */
  lemma AnyPlanAccepted(s: Strategy, reply: GeminiService.Reply, parse: string -> Option<Value>,
                        p: MonetizationPlan)
    requires reply.Answered? && parse(Trim(reply.text)) == Some(Schema.EncodeMonetizationPlan(p))
    ensures Schema.DecodeMonetizationPlan(GenerateMonetizationPlan(s, (prompt: string) => reply, parse)) == Some(p)
  {
  }
}

=== FILE: schema.dfy ===
/** The correspondence between the typed records and the JSON values that
    carry them: the object shape of each record, the response schema the
    strategy request declares to the AI service, and decoders that check a
    parsed value against that shape. The application itself never runs
    these checks; they state what a well-formed value is. */
module Schema {
  import opened Wrappers
  import opened Js
  import opened Types

  /** The declared strategy response schema: the four required top-level
      arrays, each mapped to the required (string) properties of its
      items. */
  const StrategySchema: map<string, set<string>> := map[
    "keyPillars" := {"pillar", "description"},
    "contentIdeas" := {"title", "format", "description"},
    "distributionChannels" := {"channel", "strategy"},
    "kpis" := {"metric", "goal"}]

  /** `v` is an object with a string under each of `keys`. */
  predicate HasStrings(v: Value, keys: set<string>) {
    v.Obj? && forall k :: k in keys ==> k in v.fields && v.fields[k].Str?
  }

  /** `v` is an array whose every item has a string under each of `keys`. */
  predicate ArrayOfRecords(v: Value, keys: set<string>) {
    v.Arr? && forall i :: 0 <= i < |v.items| ==> HasStrings(v.items[i], keys)
  }

  /** `v` satisfies the declared strategy schema. Extra properties are
      allowed, as the schema does not forbid them. */
  predicate ConformsToStrategySchema(v: Value) {
    v.Obj? && forall a :: a in StrategySchema ==> a in v.fields && ArrayOfRecords(v.fields[a], StrategySchema[a])
  }

  /** The string under `k`, when there is one. */
  function StrAt(m: map<string, Value>, k: string): (r: Option<string>)
    ensures r.Some? <==> k in m && m[k].Str?
    ensures r.Some? ==> m[k] == Str(r.value)
  {
    if k in m && m[k].Str? then Some(m[k].s) else None
  }

  // ---- sequences -------------------------------------------------------

  /** Decodes every element with `item`; fails if any element fails. */
  function DecodeAll<T>(vs: seq<Value>, item: Value -> Option<T>): (r: Option<seq<T>>)
    ensures r.Some? <==> forall i :: 0 <= i < |vs| ==> item(vs[i]).Some?
    ensures r.Some? ==> |r.value| == |vs| && forall i :: 0 <= i < |vs| ==> item(vs[i]) == Some(r.value[i])
  {
    if vs == [] then Some([])
    else
      var head := item(vs[0]);
      var tail := DecodeAll(vs[1..], item);
      assert forall i :: 1 <= i < |vs| ==> vs[i] == vs[1..][i - 1];
      if head.Some? && tail.Some? then Some([head.value] + tail.value) else None
  }

  /** The array holding `enc` of each element, in order. */
  function EncodeAll<T>(xs: seq<T>, enc: T -> Value): (r: seq<Value>)
    ensures |r| == |xs| && forall i :: 0 <= i < |xs| ==> r[i] == enc(xs[i])
  {
    seq(|xs|, i requires 0 <= i < |xs| => enc(xs[i]))
  }

  /** Decoding the encoding of every element gives the elements back. */
  lemma DecodeEncodeAll<T>(xs: seq<T>, enc: T -> Value, dec: Value -> Option<T>)
    requires forall i :: 0 <= i < |xs| ==> dec(enc(xs[i])) == Some(xs[i])
    ensures DecodeAll(EncodeAll(xs, enc), dec) == Some(xs)
  {
    var r := DecodeAll(EncodeAll(xs, enc), dec);
    assert r.value == xs;
  }

  function DecodeArray<T>(v: Value, item: Value -> Option<T>): (r: Option<seq<T>>)
    ensures r.Some? <==> v.Arr? && forall i :: 0 <= i < |v.items| ==> item(v.items[i]).Some?
  {
    if v.Arr? then DecodeAll(v.items, item) else None
  }

  // ---- generated strategy items -----------------------------------------

  function DecodeKeyPillar(v: Value): (r: Option<KeyPillar>)
    ensures r.Some? <==> HasStrings(v, StrategySchema["keyPillars"])
  {
    if v.Obj? && StrAt(v.fields, "pillar").Some? && StrAt(v.fields, "description").Some?
    then Some(KeyPillar(v.fields["pillar"].s, v.fields["description"].s))
    else None
  }

  function EncodeKeyPillar(p: KeyPillar): (v: Value)
    ensures DecodeKeyPillar(v) == Some(p)
  {
    Obj(map["pillar" := Str(p.pillar), "description" := Str(p.description)])
  }

  function DecodeContentIdea(v: Value): (r: Option<ContentIdea>)
    ensures r.Some? <==> HasStrings(v, StrategySchema["contentIdeas"])
  {
    if v.Obj? && StrAt(v.fields, "title").Some? && StrAt(v.fields, "format").Some?
      && StrAt(v.fields, "description").Some?
    then Some(ContentIdea(v.fields["title"].s, v.fields["format"].s, v.fields["description"].s))
    else None
  }

  function EncodeContentIdea(c: ContentIdea): (v: Value)
    ensures DecodeContentIdea(v) == Some(c)
  {
    Obj(map["title" := Str(c.title), "format" := Str(c.format), "description" := Str(c.description)])
  }

  function DecodeChannel(v: Value): (r: Option<DistributionChannel>)
    ensures r.Some? <==> HasStrings(v, StrategySchema["distributionChannels"])
  {
    if v.Obj? && StrAt(v.fields, "channel").Some? && StrAt(v.fields, "strategy").Some?
    then Some(DistributionChannel(v.fields["channel"].s, v.fields["strategy"].s))
    else None
  }

  function EncodeChannel(c: DistributionChannel): (v: Value)
    ensures DecodeChannel(v) == Some(c)
  {
    Obj(map["channel" := Str(c.channel), "strategy" := Str(c.strategy)])
  }

  function DecodeKpi(v: Value): (r: Option<Kpi>)
    ensures r.Some? <==> HasStrings(v, StrategySchema["kpis"])
  {
    if v.Obj? && StrAt(v.fields, "metric").Some? && StrAt(v.fields, "goal").Some?
    then Some(Kpi(v.fields["metric"].s, v.fields["goal"].s))
    else None
  }

  function EncodeKpi(k: Kpi): (v: Value)
    ensures DecodeKpi(v) == Some(k)
  {
    Obj(map["metric" := Str(k.metric), "goal" := Str(k.goal)])
  }

  // ---- generated strategy -------------------------------------------------

  /** Reads the four generated arrays out of an object. It succeeds exactly
      on the values that satisfy the declared strategy schema. */
  function DecodeGenerated(v: Value): (r: Option<GeneratedStrategy>)
    ensures r.Some? <==> ConformsToStrategySchema(v)
  {
    if !v.Obj? then None
    else
      ConformsByField(v);
      if "keyPillars" !in v.fields || "contentIdeas" !in v.fields
        || "distributionChannels" !in v.fields || "kpis" !in v.fields
      then None
      else
        var m := v.fields;
        var pillars := DecodeArray(m["keyPillars"], DecodeKeyPillar);
        var ideas := DecodeArray(m["contentIdeas"], DecodeContentIdea);
        var channels := DecodeArray(m["distributionChannels"], DecodeChannel);
        var kpis := DecodeArray(m["kpis"], DecodeKpi);
        if pillars.Some? && ideas.Some? && channels.Some? && kpis.Some?
        then Some(GeneratedStrategy(pillars.value, ideas.value, channels.value, kpis.value))
        else None
  }

  /** Schema conformance of an object, one top-level property at a time. */
  lemma ConformsByField(v: Value)
    requires v.Obj?
    ensures ConformsToStrategySchema(v) <==>
      && "keyPillars" in v.fields && ArrayOfRecords(v.fields["keyPillars"], StrategySchema["keyPillars"])
      && "contentIdeas" in v.fields && ArrayOfRecords(v.fields["contentIdeas"], StrategySchema["contentIdeas"])
      && "distributionChannels" in v.fields
      && ArrayOfRecords(v.fields["distributionChannels"], StrategySchema["distributionChannels"])
      && "kpis" in v.fields && ArrayOfRecords(v.fields["kpis"], StrategySchema["kpis"])
  {
    assert StrategySchema.Keys == {"keyPillars", "contentIdeas", "distributionChannels", "kpis"};
  }

  /** The four generated arrays as the object the service would send. */
  function GeneratedFields(g: GeneratedStrategy): map<string, Value> {
    map[
      "keyPillars" := Arr(EncodeAll(g.keyPillars, EncodeKeyPillar)),
      "contentIdeas" := Arr(EncodeAll(g.contentIdeas, EncodeContentIdea)),
      "distributionChannels" := Arr(EncodeAll(g.distributionChannels, EncodeChannel)),
      "kpis" := Arr(EncodeAll(g.kpis, EncodeKpi))]
  }

  /** Decoding any object that carries the encoded arrays gives back the
      generated strategy, whatever other properties the object has. */
  lemma DecodeGeneratedFields(g: GeneratedStrategy, m: map<string, Value>)
    requires forall k :: k in GeneratedFields(g) ==> k in m && m[k] == GeneratedFields(g)[k]
    ensures DecodeGenerated(Obj(m)) == Some(g)
  {
    var gen := GeneratedFields(g);
    assert "keyPillars" in gen && "contentIdeas" in gen && "distributionChannels" in gen && "kpis" in gen;
    DecodeArrayField(m, "keyPillars", g.keyPillars, EncodeKeyPillar, DecodeKeyPillar);
    DecodeArrayField(m, "contentIdeas", g.contentIdeas, EncodeContentIdea, DecodeContentIdea);
    DecodeArrayField(m, "distributionChannels", g.distributionChannels, EncodeChannel, DecodeChannel);
    DecodeArrayField(m, "kpis", g.kpis, EncodeKpi, DecodeKpi);
  }

  /** An object property holding an encoded list reads back as the list. */
  lemma DecodeArrayField<T>(m: map<string, Value>, k: string, xs: seq<T>, enc: T -> Value, dec: Value -> Option<T>)
    requires k in m && m[k] == Arr(EncodeAll(xs, enc))
    requires forall i :: 0 <= i < |xs| ==> dec(enc(xs[i])) == Some(xs[i])
    ensures DecodeArray(m[k], dec) == Some(xs)
  {
    DecodeEncodeAll(xs, enc, dec);
  }

  /** The encoded generated strategy satisfies the declared schema. */
  lemma GeneratedFieldsConform(g: GeneratedStrategy)
    ensures ConformsToStrategySchema(Obj(GeneratedFields(g)))
  {
    DecodeGeneratedFields(g, GeneratedFields(g));
  }

  // ---- monetization plan ---------------------------------------------------

  function DecodeMonetizationIdea(v: Value): (r: Option<MonetizationIdea>)
    ensures r.Some? <==> HasStrings(v, {"contentIdeaTitle", "method", "description"})
  {
    if v.Obj? && StrAt(v.fields, "contentIdeaTitle").Some? && StrAt(v.fields, "method").Some?
      && StrAt(v.fields, "description").Some?
    then Some(MonetizationIdea(v.fields["contentIdeaTitle"].s, v.fields["method"].s, v.fields["description"].s))
    else None
  }

  function EncodeMonetizationIdea(i: MonetizationIdea): (v: Value)
    ensures DecodeMonetizationIdea(v) == Some(i)
  {
    Obj(map["contentIdeaTitle" := Str(i.contentIdeaTitle), "method" := Str(i.technique),
            "description" := Str(i.description)])
  }

  /** An outreach template; `subject` may be missing but, when present,
      must be a string. */
  function DecodeOutreachTemplate(v: Value): (r: Option<OutreachTemplate>)
    ensures r.Some? <==> HasStrings(v, {"platform", "body"}) && ("subject" in v.fields ==> v.fields["subject"].Str?)
    ensures r.Some? ==> (r.value.subject.None? <==> "subject" !in v.fields)
  {
    if v.Obj? && StrAt(v.fields, "platform").Some? && StrAt(v.fields, "body").Some?
      && ("subject" in v.fields ==> v.fields["subject"].Str?)
    then Some(OutreachTemplate(v.fields["platform"].s, StrAt(v.fields, "subject"), v.fields["body"].s))
    else None
  }

  function EncodeOutreachTemplate(t: OutreachTemplate): (v: Value)
    ensures DecodeOutreachTemplate(v) == Some(t)
  {
    var m := map["platform" := Str(t.platform), "body" := Str(t.body)];
    Obj(if t.subject.Some? then m["subject" := Str(t.subject.value)] else m)
  }

  function DecodeMonetizationPlan(v: Value): (r: Option<MonetizationPlan>)
    ensures r.Some? <==>
      && v.Obj? && "monetizationIdeas" in v.fields && "outreachTemplates" in v.fields
      && DecodeArray(v.fields["monetizationIdeas"], DecodeMonetizationIdea).Some?
      && DecodeArray(v.fields["outreachTemplates"], DecodeOutreachTemplate).Some?
  {
    if v.Obj? && "monetizationIdeas" in v.fields && "outreachTemplates" in v.fields then
      var ideas := DecodeArray(v.fields["monetizationIdeas"], DecodeMonetizationIdea);
      var templates := DecodeArray(v.fields["outreachTemplates"], DecodeOutreachTemplate);
      if ideas.Some? && templates.Some? then Some(MonetizationPlan(ideas.value, templates.value)) else None
    else None
  }

  function EncodeMonetizationPlan(p: MonetizationPlan): (v: Value)
    ensures DecodeMonetizationPlan(v) == Some(p)
  {
    DecodeEncodeAll(p.monetizationIdeas, EncodeMonetizationIdea, DecodeMonetizationIdea);
    DecodeEncodeAll(p.outreachTemplates, EncodeOutreachTemplate, DecodeOutreachTemplate);
    Obj(map[
      "monetizationIdeas" := Arr(EncodeAll(p.monetizationIdeas, EncodeMonetizationIdea)),
      "outreachTemplates" := Arr(EncodeAll(p.outreachTemplates, EncodeOutreachTemplate))])
  }

  // ---- strategy ----------------------------------------------------------

  /** The properties of the form data. */
  const InputKeys: set<string> := {"topic", "goal", "audience", "tone", "framework"}

  /** The properties a strategy adds to its input: generated arrays, id,
      timestamp and plan. No input property is among them. */
  lemma InputKeysDistinct(k: string)
    requires k in InputKeys
    ensures k !in StrategySchema && k != "id" && k != "createdAt" && k != "monetizationPlan"
  {
  }

  /** The generated properties are neither an id, a timestamp nor a plan. */
  lemma GeneratedKeysDistinct(g: GeneratedStrategy, k: string)
    requires k in StrategySchema || k in GeneratedFields(g)
    ensures k in GeneratedFields(g) && k != "id" && k != "createdAt" && k != "monetizationPlan"
  {
  }

  /** The form data as a plain object: the five input properties. */
  function InputFields(d: StrategyInput): (m: map<string, Value>)
    ensures m.Keys == InputKeys
  {
    map["topic" := Str(d.topic), "goal" := Str(d.goal), "audience" := Str(d.audience),
        "tone" := Str(d.tone), "framework" := Str(d.framework)]
  }

  /** Reads the five input properties out of an object. */
  function DecodeInput(m: map<string, Value>): (r: Option<StrategyInput>)
    ensures r.Some? <==> forall k :: k in InputKeys ==> k in m && m[k].Str?
  {
    var topic := StrAt(m, "topic");
    var goal := StrAt(m, "goal");
    var audience := StrAt(m, "audience");
    var tone := StrAt(m, "tone");
    var framework := StrAt(m, "framework");
    if topic.Some? && goal.Some? && audience.Some? && tone.Some? && framework.Some?
    then Some(StrategyInput(topic.value, goal.value, audience.value, tone.value, framework.value))
    else None
  }

  /** Reads the `monetizationPlan` property: a missing or `null` plan reads
      as none; any other value there must be a plan. */
  function DecodePlanField(m: map<string, Value>): (r: Option<Option<MonetizationPlan>>)
    ensures "monetizationPlan" !in m ==> r == Some(None)
    ensures "monetizationPlan" in m && m["monetizationPlan"] == Null ==> r == Some(None)
    ensures "monetizationPlan" in m && m["monetizationPlan"] != Null ==>
      (r.Some? <==> DecodeMonetizationPlan(m["monetizationPlan"]).Some?)
      && (r.Some? ==> r.value == DecodeMonetizationPlan(m["monetizationPlan"]))
  {
    if "monetizationPlan" !in m || m["monetizationPlan"] == Null then Some(None)
    else match DecodeMonetizationPlan(m["monetizationPlan"])
      case Some(p) => Some(Some(p))
      case None => None
  }

  /** Reads a strategy out of an object. */
  function DecodeStrategy(v: Value): (r: Option<Strategy>)
    ensures r.Some? ==> ConformsToStrategySchema(v)
    ensures r.Some? ==> HasStrings(v, {"id", "createdAt"})
    ensures r.Some? ==> DecodeInput(v.fields) == Some(r.value.input)
  {
    if !v.Obj? then None
    else
      var m := v.fields;
      var input := DecodeInput(m);
      var id := StrAt(m, "id");
      var createdAt := StrAt(m, "createdAt");
      var generated := DecodeGenerated(v);
      var plan := DecodePlanField(m);
      if input.Some? && id.Some? && createdAt.Some? && generated.Some? && plan.Some?
      then Some(Strategy(input.value, generated.value, id.value, createdAt.value, plan.value))
      else None
  }

  /** The object `handleGenerate` builds: the form data, then the
      properties of the generated content, then `id` and `createdAt`, later
      properties overriding earlier ones. */
  function StrategyObject(input: StrategyInput, content: map<string, Value>, id: string, createdAt: string): (v: Value)
    ensures v.Obj?
  {
    Obj(InputFields(input) + content + map["id" := Str(id), "createdAt" := Str(createdAt)])
  }

  lemma ObjectInput(input: StrategyInput, content: map<string, Value>, id: string, createdAt: string)
    requires InputKeys !! content.Keys
    ensures DecodeInput(StrategyObject(input, content, id, createdAt).fields) == Some(input)
  {
    var m := StrategyObject(input, content, id, createdAt).fields;
    forall k | k in InputKeys ensures k in m && m[k] == InputFields(input)[k] {
      InputKeysDistinct(k);
    }
  }

  lemma ObjectGenerated(input: StrategyInput, g: GeneratedStrategy, id: string, createdAt: string)
    ensures DecodeGenerated(StrategyObject(input, GeneratedFields(g), id, createdAt)) == Some(g)
  {
    var gen := GeneratedFields(g);
    var m := StrategyObject(input, gen, id, createdAt).fields;
    forall k | k in gen ensures k in m && m[k] == gen[k] {
      GeneratedKeysDistinct(g, k);
    }
    DecodeGeneratedFields(g, m);
  }

  lemma ObjectMeta(input: StrategyInput, g: GeneratedStrategy, id: string, createdAt: string)
    ensures var m := StrategyObject(input, GeneratedFields(g), id, createdAt).fields;
      StrAt(m, "id") == Some(id) && StrAt(m, "createdAt") == Some(createdAt) && "monetizationPlan" !in m
  {
  }

  lemma GeneratedKeysNotInput(g: GeneratedStrategy)
    ensures InputKeys !! GeneratedFields(g).Keys
  {
    forall k | k in InputKeys ensures k !in GeneratedFields(g) {
      InputKeysDistinct(k);
    }
  }

  /** When the content conforms to the declared schema and names no input
      property, `id`, `createdAt` or plan, the built object reads back as
      the typed strategy: the form data verbatim, the arrays the content
      carries (extra properties ignored), the id and the timestamp, and no
      plan. */
  lemma DecodeConformingObject(input: StrategyInput, m: map<string, Value>, id: string, createdAt: string)
    requires ConformsToStrategySchema(Obj(m))
    requires InputKeys !! m.Keys && "id" !in m && "createdAt" !in m && "monetizationPlan" !in m
    ensures DecodeGenerated(Obj(m)).Some?
    ensures DecodeStrategy(StrategyObject(input, m, id, createdAt))
         == Some(Strategy(input, DecodeGenerated(Obj(m)).value, id, createdAt, None))
  {
    var v := StrategyObject(input, m, id, createdAt);
    var f := v.fields;
    ObjectInput(input, m, id, createdAt);
    ConformsByField(Obj(m));
    forall k | k in StrategySchema ensures k in f && f[k] == m[k] {
    }
    assert DecodeGenerated(v) == DecodeGenerated(Obj(m));
    assert "monetizationPlan" !in f by {
      assert "monetizationPlan" !in InputKeys;
    }
  }

  /** When the service sends exactly the encoded arrays, the built object
      reads back as the typed strategy: the form data, the generated
      arrays in order, the id and the timestamp, and no plan. */
  lemma DecodeStrategyObject(input: StrategyInput, g: GeneratedStrategy, id: string, createdAt: string)
    ensures DecodeStrategy(StrategyObject(input, GeneratedFields(g), id, createdAt))
         == Some(Strategy(input, g, id, createdAt, None))
  {
    GeneratedKeysNotInput(g);
    ObjectInput(input, GeneratedFields(g), id, createdAt);
    ObjectGenerated(input, g, id, createdAt);
    ObjectMeta(input, g, id, createdAt);
  }
}

=== FILE: text.dfy ===
/** String helpers with the behaviour of the JavaScript built-ins the
    application calls: `String.prototype.trim`, `Array.prototype.join` and
    `Number.prototype.toString` on non-negative integers. */
module Text {

  /** The characters `trim` removes: ECMAScript WhiteSpace (TAB, VT, FF,
      ZWNBSP and the Unicode space separators Zs) and LineTerminator (LF,
      CR, LINE SEPARATOR, PARAGRAPH SEPARATOR). */
  predicate IsWhitespace(c: char) {
    || c == '\t' || c == '\n' || c == '\U{000B}' || c == '\U{000C}' || c == '\r'
    || c == ' ' || c == '\U{00A0}' || c == '\U{1680}'
    || ('\U{2000}' <= c <= '\U{200A}')
    || c == '\U{2028}' || c == '\U{2029}' || c == '\U{202F}' || c == '\U{205F}'
    || c == '\U{3000}' || c == '\U{FEFF}'
  }

  /** The string holds no character other than whitespace. */
  predicate IsBlank(s: string) {
    forall k :: 0 <= k < |s| ==> IsWhitespace(s[k])
  }

  /** The length of the run of whitespace that opens `s`. */
  function LeadingWhitespace(s: string): (n: nat)
    ensures n <= |s|
    ensures forall k :: 0 <= k < n ==> IsWhitespace(s[k])
    ensures n < |s| ==> !IsWhitespace(s[n])
  {
    if s == [] || !IsWhitespace(s[0]) then 0 else 1 + LeadingWhitespace(s[1..])
  }

  /** The index at which the run of whitespace that closes `s` begins. */
  function TrailingWhitespace(s: string): (e: nat)
    ensures e <= |s|
    ensures forall k :: e <= k < |s| ==> IsWhitespace(s[k])
    ensures e > 0 ==> !IsWhitespace(s[e - 1])
  {
    if s == [] || !IsWhitespace(s[|s| - 1]) then |s| else TrailingWhitespace(s[..|s| - 1])
  }

  /** `s.trim()`: `s` without its leading and trailing whitespace. The
      result is empty exactly when `s` is blank, and otherwise starts and
      ends with a character that is not whitespace. */
  function Trim(s: string): (r: string)
    ensures |r| <= |s|
    ensures r == [] <==> IsBlank(s)
    ensures r != [] ==> !IsWhitespace(r[0]) && !IsWhitespace(r[|r| - 1])
  {
    var a := LeadingWhitespace(s);
    var e := TrailingWhitespace(s);
    if e <= a then [] else s[a..e]
  }

  /** `!s.trim()` is blankness, and a string is not blank exactly when it
      holds a character that is not whitespace. */
  lemma TrimEmptyIffBlank(s: string)
    ensures Trim(s) == [] <==> IsBlank(s)
    ensures !IsBlank(s) <==> exists k :: 0 <= k < |s| && !IsWhitespace(s[k])
  {
  }

  /** `trim()` keeps the stretch of `s` that starts where the leading
      whitespace ends; what it drops on either side is whitespace. */
  lemma TrimKeepsMiddle(s: string)
    ensures var a := LeadingWhitespace(s);
      && a + |Trim(s)| <= |s|
      && Trim(s) == s[a..a + |Trim(s)|]
      && (forall k :: 0 <= k < a ==> IsWhitespace(s[k]))
      && (forall k :: a + |Trim(s)| <= k < |s| ==> IsWhitespace(s[k]))
  {
  }

  /** Trimming twice is trimming once. */
  lemma TrimIdempotent(s: string)
    ensures Trim(Trim(s)) == Trim(s)
  {
    var r := Trim(s);
    if r != [] {
      assert LeadingWhitespace(r) == 0;
      assert TrailingWhitespace(r) == |r|;
      assert r[0..|r|] == r;
    }
  }

  /** `xs.join(sep)`: the elements in order with `sep` between neighbours. */
  function Join(xs: seq<string>, sep: string): string
    decreases |xs|
  {
    if |xs| == 0 then ""
    else if |xs| == 1 then xs[0]
    else xs[0] + sep + Join(xs[1..], sep)
  }

  /** The index in `Join(xs, sep)` at which element `i` begins. */
  function Offset(xs: seq<string>, sep: string, i: nat): nat
    requires i <= |xs|
  {
    if i == 0 then 0 else Offset(xs, sep, i - 1) + |xs[i - 1]| + |sep|
  }

  /** `sub` sits in `s` starting at index `at`. */
  predicate Occurs(s: string, sub: string, at: int) {
    0 <= at && at + |sub| <= |s| && s[at..at + |sub|] == sub
  }

  /** The length of a join: every element, plus one separator between each
      pair of neighbours. */
  lemma {:induction false} JoinLength(xs: seq<string>, sep: string)
    requires |xs| > 0
    ensures |Join(xs, sep)| == Offset(xs, sep, |xs| - 1) + |xs[|xs| - 1]|
    decreases |xs|
  {
    if |xs| > 1 {
      JoinLength(xs[1..], sep);
      OffsetOfTail(xs, sep, |xs| - 1);
    }
  }

  lemma {:induction false} OffsetOfTail(xs: seq<string>, sep: string, i: nat)
    requires 1 <= i <= |xs|
    ensures Offset(xs, sep, i) == |xs[0]| + |sep| + Offset(xs[1..], sep, i - 1)
  {
    if i > 1 {
      OffsetOfTail(xs, sep, i - 1);
    }
  }

  /** Every element of `xs` appears verbatim in `Join(xs, sep)` at its
      offset, followed by `sep` unless it is the last. */
  lemma {:induction false} JoinPlacesElement(xs: seq<string>, sep: string, i: nat)
    requires i < |xs|
    ensures Occurs(Join(xs, sep), xs[i], Offset(xs, sep, i))
    ensures i + 1 < |xs| ==> Occurs(Join(xs, sep), sep, Offset(xs, sep, i) + |xs[i]|)
    decreases |xs|
  {
    if |xs| == 1 {
    } else if i == 0 {
      JoinHead(xs, sep);
    } else {
      JoinPlacesElement(xs[1..], sep, i - 1);
      OffsetOfTail(xs, sep, i);
      var o := Offset(xs[1..], sep, i - 1);
      JoinShift(xs, sep, xs[i], o);
      if i + 1 < |xs| {
        JoinShift(xs, sep, sep, o + |xs[i]|);
      }
    }
  }

  /** A join of two or more elements opens with the first and a separator. */
  lemma JoinHead(xs: seq<string>, sep: string)
    requires |xs| > 1
    ensures Occurs(Join(xs, sep), xs[0], 0) && Occurs(Join(xs, sep), sep, |xs[0]|)
  {
    var j := Join(xs, sep);
    assert j == xs[0] + sep + Join(xs[1..], sep);
    assert j[..|xs[0]|] == xs[0];
    assert j[|xs[0]|..|xs[0]| + |sep|] == sep;
  }

  /** What occurs in the join of the tail occurs in the whole join, shifted
      by the first element and a separator. */
  lemma JoinShift(xs: seq<string>, sep: string, sub: string, at: int)
    requires |xs| > 1 && Occurs(Join(xs[1..], sep), sub, at)
    ensures Occurs(Join(xs, sep), sub, |xs[0]| + |sep| + at)
  {
    var j := Join(xs, sep);
    var tail := Join(xs[1..], sep);
    var d := |xs[0]| + |sep|;
    assert j == xs[0] + sep + tail;
    assert j[d + at..d + at + |sub|] == tail[at..at + |sub|];
  }

  /** With a non-empty separator, later elements begin strictly later: the
      join keeps the order of `xs`. */
  lemma {:induction false} OffsetsIncrease(xs: seq<string>, sep: string, i: nat, j: nat)
    requires i < j <= |xs| && |sep| > 0
    ensures Offset(xs, sep, i) + |xs[i]| < Offset(xs, sep, j)
    decreases j
  {
    if j > i + 1 {
      OffsetsIncrease(xs, sep, i, j - 1);
    }
  }

  /** An occurrence inside an occurrence is an occurrence in the whole. */
  lemma OccursWithin(s: string, sub: string, at: int, x: string, b: int)
    requires Occurs(s, sub, at) && Occurs(sub, x, b)
    ensures Occurs(s, x, at + b)
  {
    forall k | 0 <= k < |x| ensures s[at + b + k] == x[k] {
      assert sub[b + k] == s[at..at + |sub|][b + k];
    }
    assert s[at + b..at + b + |x|] == x;
  }

  /** An inner element of a join sits between two separators. */
  lemma {:induction false} JoinSurrounds(xs: seq<string>, sep: string, i: nat)
    requires 0 < i < |xs| - 1
    ensures Offset(xs, sep, i) >= |sep|
    ensures Occurs(Join(xs, sep), sep + xs[i] + sep, Offset(xs, sep, i) - |sep|)
    decreases |xs|
  {
    OffsetOfTail(xs, sep, i);
    if i == 1 {
      JoinSecond(xs, sep);
    } else {
      JoinSurrounds(xs[1..], sep, i - 1);
      assert xs[1..][i - 1] == xs[i];
      JoinShift(xs, sep, sep + xs[i] + sep, Offset(xs[1..], sep, i - 1) - |sep|);
    }
  }

  /** In a join of three or more elements the second stands between two
      separators. */
  lemma JoinSecond(xs: seq<string>, sep: string)
    requires |xs| > 2
    ensures Occurs(Join(xs, sep), sep + xs[1] + sep, |xs[0]|)
  {
    var w := sep + xs[1] + sep;
    assert Join(xs[1..], sep) == xs[1] + sep + Join(xs[2..], sep) by {
      assert xs[1..][0] == xs[1] && xs[1..][1..] == xs[2..];
    }
    assert Join(xs, sep) == xs[0] + w + Join(xs[2..], sep);
  }

  /** With a non-empty separator, elements `i < k` of a join appear in that
      order, each whole. */
  lemma JoinKeepsOrder(xs: seq<string>, sep: string, i: nat, k: nat)
    requires i < k < |xs| && |sep| > 0
    ensures Occurs(Join(xs, sep), xs[i], Offset(xs, sep, i))
    ensures Occurs(Join(xs, sep), xs[k], Offset(xs, sep, k))
    ensures Offset(xs, sep, i) + |xs[i]| < Offset(xs, sep, k)
  {
    JoinPlacesElement(xs, sep, i);
    JoinPlacesElement(xs, sep, k);
    OffsetsIncrease(xs, sep, i, k);
  }

  /** The decimal digit for `d`. */
  function Digit(d: nat): (c: char)
    requires d < 10
    ensures '0' <= c <= '9'
  {
    ((('0' as int) + d) as char)
  }

  /** `n.toString()` for a non-negative integer: decimal digits, no leading
      zero (except for `0` itself). */
  function NatToDecimal(n: nat): (r: string)
    ensures |r| >= 1
    ensures forall k :: 0 <= k < |r| ==> '0' <= r[k] <= '9'
    ensures r[0] == '0' ==> n == 0 && r == "0"
  {
    if n < 10 then [Digit(n)] else NatToDecimal(n / 10) + [Digit(n % 10)]
  }

  /** The number a string of decimal digits denotes. */
  function DecimalValue(s: string): nat
    requires forall k :: 0 <= k < |s| ==> '0' <= s[k] <= '9'
  {
    if s == [] then 0
    else DecimalValue(s[..|s| - 1]) * 10 + ((s[|s| - 1] as int) - ('0' as int))
  }

  /** Reading back the decimal text of `n` gives `n`. */
  lemma {:induction false} DecimalRoundTrip(n: nat)
    ensures DecimalValue(NatToDecimal(n)) == n
  {
    var r := NatToDecimal(n);
    if n >= 10 {
      DecimalRoundTrip(n / 10);
      assert r[..|r| - 1] == NatToDecimal(n / 10);
    }
  }

  /** Distinct numbers have distinct decimal texts. */
  lemma DecimalInjective()
    ensures forall a: nat, b: nat :: NatToDecimal(a) == NatToDecimal(b) ==> a == b
  {
    forall a: nat, b: nat | NatToDecimal(a) == NatToDecimal(b) ensures a == b {
      DecimalRoundTrip(a);
      DecimalRoundTrip(b);
    }
  }
}

=== FILE: toasts.dfy ===
/** The notification queue of the toast provider: an ordered list of
    toasts with append (`addToast`) and remove-by-id (`removeToast`). Ids are
    clock readings supplied by the caller and are not assumed unique. */
module Toasts {
  import opened Types

  /** `addToast(message, type)` at clock reading `now`: one toast with the
      given message and type goes at the end; the earlier toasts keep their
      values and order. */
  function Add(ts: seq<Toast>, now: int, message: string, kind: ToastType): (r: seq<Toast>)
    ensures |r| == |ts| + 1
    ensures r[..|ts|] == ts
    ensures r[|ts|].id == now && r[|ts|].kind == kind && r[|ts|].message == message
  {
    ts + [Toast(now, kind, message)]
  }

  /** `after` is `before` with exactly one toast of `kind` appended. */
  predicate PostedOne(before: seq<Toast>, after: seq<Toast>, kind: ToastType) {
    |after| == |before| + 1 && after[..|before|] == before && after[|before|].kind == kind
  }

  /** `removeToast(id)`: the list filtered down to the toasts that carry
      another id. No toast carrying `id` is left. */
  function Remove(ts: seq<Toast>, id: int): (r: seq<Toast>)
    ensures |r| <= |ts|
    ensures forall i :: 0 <= i < |r| ==> r[i].id != id
  {
    if ts == [] then []
    else (if ts[0].id == id then [] else [ts[0]]) + Remove(ts[1..], id)
  }

  /** Every toast carrying another id stays, as often as it was there. */
  lemma {:induction false} RemoveKeepsOthers(ts: seq<Toast>, id: int, t: Toast)
    requires t.id != id
    ensures multiset(Remove(ts, id))[t] == multiset(ts)[t]
    ensures t in Remove(ts, id) <==> t in ts
    decreases |ts|
  {
    if ts != [] {
      RemoveKeepsOthers(ts[1..], id, t);
      assert ts == [ts[0]] + ts[1..];
    }
  }

  /** Removal works toast by toast, in order: removing from a concatenation
      is removing from each part. Together with the single-toast case this
      pins `Remove` down as an order-preserving filter. */
  lemma {:induction false} RemoveAppend(a: seq<Toast>, b: seq<Toast>, id: int)
    ensures Remove(a + b, id) == Remove(a, id) + Remove(b, id)
    decreases |a|
  {
    if a == [] {
      assert a + b == b;
    } else {
      var head := if a[0].id == id then [] else [a[0]];
      assert (a + b)[0] == a[0];
      assert (a + b)[1..] == a[1..] + b;
      assert Remove(a + b, id) == head + Remove(a[1..] + b, id);
      RemoveAppend(a[1..], b, id);
      assert Remove(a, id) == head + Remove(a[1..], id);
    }
  }

  /** A single toast stays exactly when it carries another id. */
  lemma RemoveSingle(t: Toast, id: int)
    ensures Remove([t], id) == if t.id == id then [] else [t]
  {
  }

  /** Removing an id no toast carries changes nothing. */
  lemma {:induction false} RemoveAbsent(ts: seq<Toast>, id: int)
    requires forall i :: 0 <= i < |ts| ==> ts[i].id != id
    ensures Remove(ts, id) == ts
    decreases |ts|
  {
    if ts != [] {
      RemoveAbsent(ts[1..], id);
      assert ts == [ts[0]] + ts[1..];
    }
  }

  /** Removing twice is removing once. */
  lemma RemoveIdempotent(ts: seq<Toast>, id: int)
    ensures Remove(Remove(ts, id), id) == Remove(ts, id)
  {
    var r := Remove(ts, id);
    assert forall i :: 0 <= i < |r| ==> r[i] in r;
    RemoveAbsent(r, id);
  }

  /** Dismissing a freshly posted toast also dismisses every earlier toast
      posted in the same millisecond. */
  lemma RemoveJustAdded(ts: seq<Toast>, now: int, message: string, kind: ToastType)
    ensures Remove(Add(ts, now, message, kind), now) == Remove(ts, now)
  {
    RemoveAppend(ts, [Toast(now, kind, message)], now);
  }

  /** Dismissing another id keeps the freshly posted toast, still last. */
  lemma RemoveOtherKeepsAdded(ts: seq<Toast>, now: int, message: string, kind: ToastType, id: int)
    requires id != now
    ensures Remove(Add(ts, now, message, kind), id) == Add(Remove(ts, id), now, message, kind)
  {
    RemoveAppend(ts, [Toast(now, kind, message)], id);
  }

  /** Two toasts posted in the same millisecond share an id, and one
      dismissal drops both. */
  lemma SameMillisecondCollision(now: int)
    ensures var ts := Add(Add([], now, "first", Success), now, "second", Error);
      |ts| == 2 && ts[0].id == ts[1].id && Remove(ts, now) == []
  {
    var ts := Add(Add([], now, "first", Success), now, "second", Error);
    RemoveJustAdded(Add([], now, "first", Success), now, "second", Error);
    RemoveJustAdded([], now, "first", Success);
  }
}

=== FILE: types.dfy ===
/** The records of the application, field for field. */
module Types {
  import opened Wrappers

  datatype ContentIdea = ContentIdea(title: string, format: string, description: string)

  datatype KeyPillar = KeyPillar(pillar: string, description: string)

  datatype DistributionChannel = DistributionChannel(channel: string, strategy: string)

  datatype Kpi = Kpi(metric: string, goal: string)

  /** The part of a strategy the AI service produces. */
  datatype GeneratedStrategy = GeneratedStrategy(
    keyPillars: seq<KeyPillar>,
    contentIdeas: seq<ContentIdea>,
    distributionChannels: seq<DistributionChannel>,
    kpis: seq<Kpi>)

  /** What the user types into the form. `tone` is free text in the record
      even though the form only offers five choices. */
  datatype StrategyInput = StrategyInput(
    topic: string,
    goal: string,
    audience: string,
    tone: string,
    framework: string)

  /** `technique` is the property named `method` (a reserved word here). */
  datatype MonetizationIdea = MonetizationIdea(contentIdeaTitle: string, technique: string, description: string)

  /** `subject` is an optional property. */
  datatype OutreachTemplate = OutreachTemplate(platform: string, subject: Option<string>, body: string)

  datatype MonetizationPlan = MonetizationPlan(
    monetizationIdeas: seq<MonetizationIdea>,
    outreachTemplates: seq<OutreachTemplate>)

  /** A strategy: the input fields and the generated fields side by side,
      an id, a creation timestamp and an optional monetization plan
      (absent and `null` are the same here). */
  datatype Strategy = Strategy(
    input: StrategyInput,
    generated: GeneratedStrategy,
    id: string,
    createdAt: string,
    monetizationPlan: Option<MonetizationPlan>)

  datatype ToastType = Success | Error | Warning | Info

  /** A notification. `id` is the millisecond clock reading when it was
      posted, so it need not be unique. */
  datatype Toast = Toast(id: int, kind: ToastType, message: string)
}

=== FILE: wrappers.dfy ===
/** Optional values and success-or-error results, used wherever the
    application has an absent value or a caught exception. */
module Wrappers {

  /** An absent-or-present value: `undefined`/`null` versus a value. */
  datatype Option<+T> = None | Some(value: T)

  /** The outcome of a call that either returns a value or throws an error
      carrying a message. */
  datatype Result<+T, +E> = Ok(value: T) | Err(error: E)
}
